=== FILE: README.md ===
# OS course assignments: a Dafny model of their core logic

This project models, in Dafny, the parts of an operating-systems course repository that
carry real logic:

- the bounded request queue of the multi-threaded web server (`HW3/queue.c`);
- the server's admission control and dispatch: five overload policies (block, drop-tail,
  drop-head, block-flush, random), VIP priority, and the worker "skip" path
  (`HW3_works/server.c`). Each critical section under the server's mutex is one atomic
  step over an immutable state;
- the small shell's string helpers, alias expansion, prompt, command classification
  and job list (`Commands.cpp`);
- the first-fit allocator with its four statistics counters (`HW4/malloc_2.cpp`);
- the buddy allocator's arithmetic (`HW4/malloc_3.cpp`). This covers block orders, heap
  alignment, the XOR buddy address, split and merge, the `mmap` thresholds and the
  decisions `srealloc` makes;
- the `sys_set_sec` clearance system call and its stub siblings (`HW2/kernel/hw2.c`).

Pointers become sequence positions or natural-number addresses. Linked lists become
sequences. Anything the code gets from the outside world becomes a parameter:

- `rand()` coin flips;
- whether `sbrk` succeeds;
- the VIP flag of a request;
- the handler's skip flag;
- timestamps;
- the set of reaped child processes;
- `capable(CAP_SYS_ADMIN)`.

Files and modules:

| file | module | models |
|---|---|---|
| `wrappers.dfy` | `Wrappers` | `Option` |
| `request_queue.dfy` | `RequestQueue` | `HW3/queue.c` |
| `server.dfy` | `Server` | `HW3_works/server.c` |
| `shell.dfy` | `Shell` | `Commands.cpp` |
| `first_fit.dfy` | `FirstFit` | `HW4/malloc_2.cpp` |
| `bits.dfy` | `Bits` | powers of two, bits, XOR and AND on naturals (used by `Buddy`) |
| `buddy.dfy` | `Buddy` | `HW4/malloc_3.cpp` |
| `clearance.dfy` | `Clearance` | `HW2/kernel/hw2.c` |

## Model

| member | source | states |
|---|---|---|
| RequestQueue.Create | HW3/queue.c:28-35 | A new queue is empty with the given capacity. A capacity of 0 makes it full at once. |
| RequestQueue.Size | HW3/queue.c:217-219 | The count is 0 exactly when the queue is empty, equals the capacity when full, and never exceeds it. |
| RequestQueue.CounterTracksContents | HW3/queue.c:39-50 | Full and empty follow the counter. An accepted enqueue adds one and leaves the queue non-empty. A dequeue from a non-empty queue removes one and leaves room. |
| RequestQueue.HeadDescriptor | HW3/queue.c:149-153 | The head's descriptor, -1 when empty: what a dequeue would hand back. |
| RequestQueue.HeadIsFirstAdded | HW3/queue.c:155-160 | The head is the first request added and keeps its arrival time until dequeued. An empty queue reports time 0. |
| RequestQueue.Enqueue | HW3/queue.c:39-67 | On a full queue nothing changes. Otherwise the request is appended at the tail. The size bound is kept. |
| RequestQueue.Dequeue | HW3/queue.c:71-85 | An empty queue gives -1 and is unchanged. Otherwise the head's descriptor is returned and the head removed. The rest is unchanged. |
| RequestQueue.IndexOf | HW3/queue.c:163-176 | The position of the first request with the descriptor, or -1 exactly when none carries it. |
| RequestQueue.FindReq | HW3/queue.c:163-176 | The index of the first request with that descriptor. It is -1 exactly when no request carries it, including on an empty queue. |
| RequestQueue.DequeueByIndex | HW3/queue.c:188-215 | An index outside [0, size), or an empty queue, gives -1 and no change. Otherwise exactly the i-th request is removed and its descriptor returned. |
| RequestQueue.DequeueByReq | HW3/queue.c:179-185 | Removes exactly the first request with the descriptor. It is a no-op when the descriptor is absent. |
| RequestQueue.SkipDequeue | HW3/queue.c:138-147 | Removes and returns the newest (tail) request, or -1 with no change when empty. |
| RequestQueue.DequeueTail | HW3/queue.c:88-92 | The promised "pop the tail, -1 if empty": the queue minus its last request, and that request's descriptor. |
| RequestQueue.DequeueTailIsSkipDequeue | HW3/queue.c:88-92 | The intended tail pop equals removal by the last index. |
| RequestQueue.DequeueTailAsWritten | HW3/queue.c:90-110 | The list code dereferences NULL exactly on a one-element queue. With two or more elements the tail pointer goes stale. The chain it leaves is the intended queue. |
| RequestQueue.DequeueTailLosesNextEnqueue | HW3/queue.c:54-67 | After the as-written tail pop, the next enqueue is counted but unreachable from the head. |
| RequestQueue.DequeueTailCounterexample | HW3/queue.c:88-110 | The queue [5, 7]: pop the tail, enqueue 9. The head walk finds [5] although the size is 2. The intended queue is [5, 9]. |
| RequestQueue.EnqueueLinked | HW3/queue.c:54-67 | On a well-linked list, the pointer-level enqueue agrees with the sequence enqueue. |
| RequestQueue.KillLoop | HW3/queue.c:121-134 | The loop finishes exactly when at least `remaining` coins come up heads. It then has closed and removed exactly the first `remaining` requests, in order. |
| RequestQueue.RandomDequeue | HW3/queue.c:113-135 | Removes exactly ⌊size/2⌋ requests, all from the head, and hands back their descriptors. It finishes exactly when enough flips are heads. |
| RequestQueue.RandomDequeueIgnoresCoins | HW3/queue.c:126-131 | Any two coin sequences under which the drop finishes give the same result. |
| RequestQueue.RandomDequeueSingleton | HW3/queue.c:117 | A one-element queue loses nothing. |
| RequestQueue.RandomDequeueHalfUp | HW3/queue.c:113-135 | The ⌈size/2⌉ variant: on a non-empty queue it frees at least one slot. |
| RequestQueue.HalfUpAgreesOnEvenSizes | HW3/queue.c:117 | On even sizes the rounded-up drop is the code's drop. |
| RequestQueue.EnqueueAllAppends | HW3/queue.c:54-67 | Enqueueing a run that fits appends it in order. |
| RequestQueue.DrainAllIsInOrder | HW3/queue.c:71-85 | Repeated dequeues yield the descriptors head to tail. |
| RequestQueue.FifoOrder | HW3/queue.c:54-85 | Requests come out of a fresh queue in the order they went in. |
| RequestQueue.DequeueByIndexReinsert | HW3/queue.c:199-212 | Putting the removed request back at its index restores the queue. So the others keep their order. |
| RequestQueue.DequeueByReqRemovesOne | HW3/queue.c:179-185 | As a multiset, exactly one copy of the descriptor is removed. |
| Server.PolicyOf | HW3_works/server.c:33 | A valid policy name maps to the policy that names it back. |
| Server.IsValidPolicy | HW3_works/server.c:351-361 | True exactly when the name is one of block, dh, dt, bf, random. |
| Server.GetArgs | HW3_works/server.c:364-380 | Accepted exactly when there are at least 5 arguments, port > 1024, threads > 0, queue size > 0 and the policy is valid. Otherwise the exit code is 1. |
| Server.Init | HW3_works/server.c:148-159 | The initial state holds no descriptor and has load 0. It satisfies the capacity invariant exactly when the queue size is positive. |
| Server.LoadCountsHeld | HW3_works/server.c:383-386 | The load is the number of descriptors held in the three queues, plus one while the VIP thread is busy. |
| Server.Route | HW3_works/server.c:120-135 | A VIP arrival goes to the VIP queue and signals only when that queue's size becomes 1. A standard arrival goes to the waiting queue and signals a worker only when no VIP work is queued or in service. |
| Server.AfterDrain | HW3_works/server.c:100-112 | Waits exactly while anything is queued or in service. At load 0 a standard arrival is closed with the state unchanged, and a VIP arrival is routed with nothing closed. |
| Server.Overload | HW3_works/server.c:65-116 | On a non-empty waiting queue: block waits for space, and only block does. Drop-tail closes a standard arrival, and for a VIP arrival pops the newest waiting request and routes on the rest. Drop-head pops the oldest and routes. Block-flush waits for the drain. Random flips until ⌈n/2⌉ heads, then closes the first ⌈n/2⌉ and routes on the rest. |
| Server.AcceptStep | HW3_works/server.c:64-137 | Which outcome each input gets. Below capacity the arrival is admitted and routed, closing nothing. At capacity with an empty waiting queue, or under block, the thread waits for space. A saturated drop-tail step closes a standard arrival unchanged. A saturated block-flush step waits for the drain, and only block-flush ever waits for it. After the drain a VIP arrival is admitted and a standard one closed. Drop-head closes the oldest waiting request, drop-tail the newest for a VIP arrival, random the first ⌈n/2⌉ (the corrected drop). Under the invariant an admitted step keeps the load within capacity, hands back every descriptor it takes out, and leaves the arrival last in its queue. |
| Server.AdmitFacts | HW3_works/server.c:119-135 | Admitting below capacity raises the load by one, keeps the invariant and adds the arrival. |
| Server.AfterDrainFacts | HW3_works/server.c:100-112 | Block-flush keeps waiting exactly while the load is not 0. After the drain a standard arrival is closed with the state unchanged, and a VIP arrival is admitted, keeping the invariant. |
| Server.OverloadFacts | HW3_works/server.c:65-116 | On a saturated state only block waits for space. Drop-tail closes a standard arrival unchanged, and block-flush waits for the drain. Drop-head, drop-tail with a VIP arrival and random say what they close. Random keeps flipping exactly while too few heads came up. Every admission keeps the invariant and the descriptor accounting, with the corrected random drop and tail pop. |
| Server.DropTailFacts | HW3_works/server.c:75-91 | Drop-tail with a VIP arrival closes the newest waiting request, removed by the corrected tail pop, and admits the arrival. |
| Server.DropHeadFacts | HW3_works/server.c:92-99 | Drop-head closes the oldest waiting request and admits the arrival. |
| Server.RandomFacts | HW3_works/server.c:113-116 | The random branch, with the rounded-up drop, closes the first ⌈n/2⌉ waiting requests and keeps the invariant. |
| Server.DropPrefixFacts | HW3_works/server.c:113-116 | Dropping a prefix of the waiting queue hands back exactly its descriptors and lowers the load by its length. |
| Server.DropLastFacts | HW3_works/server.c:85-89 | Dropping the newest waiting request hands back exactly its descriptor. |
| Server.RandomBranchAsWrittenOverfills | HW3_works/server.c:113-116 | Capacity 2, one request handled and one waiting: the code drops ⌊1/2⌋ = 0 and admits, reaching load 3. |
| Server.RandomBranchKeepsCapacity | HW3_works/server.c:113-116 | The rounded-up drop keeps every saturated state within capacity and frees at least one slot. |
| Server.DropTailExample | HW3_works/server.c:75-91 | Queue [1, 2] under dt with a VIP arrival 3: closes 2, queues 3 for the VIP thread and signals it. |
| Server.DropHeadExample | HW3_works/server.c:92-99 | Queue [1, 2] under dh with a standard arrival 4: closes 1 and leaves [2, 4]. |
| Server.RetireWakeups | HW3_works/server.c:229-236 | The accepting thread is signalled exactly when the load is below capacity. Block-flush is signalled exactly when the load is 0. |
| Server.WorkerTake | HW3_works/server.c:209-217 | A worker takes exactly when waiting is non-empty, the VIP queue is empty and the VIP thread is idle. The head moves to the handling queue. |
| Server.WorkerRetire | HW3_works/server.c:227-253 | The finished request leaves the handling queue. The signals are sent on the load after that removal: new requests allowed when below capacity, empty_queue exactly at 0, and no worker broadcast. On skip, the newest waiting request is taken, stamped with the head's arrival time. |
| Server.SkipRetire | HW3_works/server.c:270-281 | The skipped-to request leaves the handling queue and the load drops by one. New requests are allowed when below capacity, and empty_queue is signalled exactly at load 0, with no worker broadcast. |
| Server.VipTake | HW3_works/server.c:311-318 | The VIP thread takes exactly when its queue is non-empty and marks itself busy. |
| Server.VipRetire | HW3_works/server.c:329-345 | The VIP thread becomes idle. Workers are broadcast exactly when the VIP queue is empty and the waiting queue is not, and then a worker can take. empty_queue is signalled exactly when the load reaches 0. |
| Server.WorkerTakeKeepsInv | HW3_works/server.c:209-217 | A worker's take keeps the capacity invariant. |
| Server.WorkerRetireKeepsInv | HW3_works/server.c:227-253 | A worker's retire keeps the capacity invariant. |
| Server.SkipRetireKeepsInv | HW3_works/server.c:270-281 | The second retire keeps the capacity invariant. |
| Server.VipStepsKeepInv | HW3_works/server.c:311-345 | The VIP thread's steps keep the capacity invariant. |
| Server.VipPriority | HW3_works/server.c:209-212 | While VIP work is queued or in service, no worker takes a request. |
| Server.EmptySignalEndsDrain | HW3_works/server.c:100-105 | Whenever a worker, skip or VIP retire sends empty_queue, the accepting thread's next drain check stops waiting. |
| Shell.FirstNonSpace | Commands.cpp:38 | The first non-blank position. It is the length exactly when the string is all blank. |
| Shell.LastNonSpace | Commands.cpp:46 | The last non-blank position. It is -1 exactly when the string is all blank. |
| Shell.LTrim | Commands.cpp:37-40 | The suffix after the leading blanks. It is empty exactly when the input is all blank. |
| Shell.RTrim | Commands.cpp:45-48 | The prefix before the trailing blanks. It is empty exactly when the input is all blank. |
| Shell.Trim | Commands.cpp:21-56 | The result runs from the first to the last non-blank character. It has no blank at either end, and only blanks are cut off. |
| Shell.TrimIsRTrimOfLTrim | Commands.cpp:37-56 | Trimming equals right-trimming the left-trimmed input, which is how the code composes it. |
| Shell.TrimEmptyIffBlank | Commands.cpp:21-56 | Trimming gives "" exactly for all-blank input. |
| Shell.TrimIdempotent | Commands.cpp:54-56 | Trimming twice is trimming once. |
| Shell.ParseCommandLine | Commands.cpp:67-80 | The arguments are the blank-separated words of the line, each non-empty and blank-free. |
| Shell.TokensEmptyIffBlank | Commands.cpp:67-80 | A line has no words exactly when it is all blank. |
| Shell.TrimKeepsTokens | Commands.cpp:70 | Trimming first does not change the words. |
| Shell.TokenizeJoin | Commands.cpp:67-80 | Joining words with single spaces and parsing gives the words back. |
| Shell.IsPositiveInteger | Commands.cpp:150-159 | True exactly when the string is non-empty and all digits. |
| Shell.IsSignal | Commands.cpp:164-180 | `stoi` throws exactly when the syntax holds and the value exceeds 2^31. The check passes exactly for '-' then digits with value ≤ 32. |
| Shell.SignalZeroAccepted | Commands.cpp:161-180 | "-0" passes although the comment promises [1, 32]. |
| Shell.IsBackgroundCommand | Commands.cpp:97-100 | True exactly when the last non-blank character is '&'. |
| Shell.RemoveBackgroundSign | Commands.cpp:105-121 | With a trailing '&', the result is the text up to it with '&' turned into one space. A line with non-blank text and no trailing '&' is unchanged. |
| Shell.IsRedirection | Commands.cpp:126-133 | True exactly when some argument is ">" or ">>". |
| Shell.IsPipe | Commands.cpp:138-145 | True exactly when some argument is one of the two pipe tokens (plain, or with standard error). |
| Shell.ReplaceAliased | Commands.cpp:591-613 | A line whose first word is no alias comes back verbatim. Otherwise the result starts with the alias's text, then a blank or nothing, and the rest reads as the remaining words. |
| Shell.ReplaceAliasedTokens | Commands.cpp:591-613 | After expansion, the words are the alias's words followed by the remaining arguments. A line whose first word is no alias reads as before. |
| Shell.ChangePrompt | Commands.cpp:975-977 | The prompt ends in "> " and starts with the name, or with "smash" for an empty name. |
| Shell.ChangePromptCollisions | Commands.cpp:975-977 | Two names give the same prompt exactly when equal, or when they are "" and "smash". |
| Shell.KindTable | Commands.cpp:1034-1069 | The if-chain on the first word agrees with the table of the 12 built-in names. Anything else is external. |
| Shell.Classify | Commands.cpp:1017-1069 | No arguments gives no command. Redirection wins over pipe, pipe over any built-in name. Each built-in name selects its own command, and anything else is external. |
| Shell.CreateCommand | Commands.cpp:1010-1016 | No command exactly when the alias-expanded line is all blank. |
| Shell.NewJobsListInv | Commands.cpp:1090-1092 | A new job list is empty with next ID 1 and satisfies the ID invariant. |
| Shell.RemoveFinished | Commands.cpp:1128-1139 | Keeps exactly the jobs whose process was not reaped, and an increasing-ID list stays increasing. |
| Shell.RemoveFinishedAppend | Commands.cpp:1128-1139 | The erase loop filters block by block: on a concatenation it keeps the kept jobs of each part, in order. With the one-job case this pins the result for any list. |
| Shell.RemoveFinishedOne | Commands.cpp:1132-1136 | One job is kept exactly when its process was not reaped. |
| Shell.AddJob | Commands.cpp:1103-1106 | Finished jobs are dropped, the new job is appended with the next ID, and the ID invariant is kept. |
| Shell.JobIndex | Commands.cpp:1141-1148 | The first position with the ID, or -1 exactly when there is none. |
| Shell.GetJobById | Commands.cpp:1141-1148 | None exactly when no job has the ID. Otherwise the first job of the list with that ID. |
| Shell.RemoveJobById | Commands.cpp:1154-1161 | Erases exactly the first job with the ID and keeps the rest in order. It is a no-op when there is none. |
| Shell.RemoveJobByIdGone | Commands.cpp:1154-1161 | Under the ID invariant, the ID is gone afterwards and the invariant is kept. |
| Shell.RemoveJobByIdKeepsOthers | Commands.cpp:1154-1161 | Every other ID finds the same job as before. |
| Shell.GetLastJob | Commands.cpp:1163-1170 | Gives (-1, none) exactly on an empty list. Otherwise it gives the last job and its ID. |
| Shell.GetLastJobId | Commands.cpp:1172-1174 | The newest job's ID. Under the invariant it is the largest live ID, below the next ID. |
| Shell.AddJobIsNewest | Commands.cpp:1103-1106 | After addJob, the last ID is the ID just handed out, and every other job's ID is smaller. |
| FirstFit.EmptyHeapInv | HW4/malloc_2.cpp:27-30 | The empty heap's counters are all 0 and agree with its blocks. |
| FirstFit.FirstFit | HW4/malloc_2.cpp:62-77 | The first free block big enough, or -1 when there is none. |
| FirstFit.AllocateBlock | HW4/malloc_2.cpp:61-97 | Reuses the first fit, moving only the free counters. Otherwise it appends a block of exactly the size, moving only the allocated counters. When `sbrk` fails it fails with no change. Either way the counters stay consistent. |
| FirstFit.FreeBlock | HW4/malloc_2.cpp:49-59 | Freeing a free block does nothing. Otherwise the block is marked free and the free counters grow by it. |
| FirstFit.Smalloc | HW4/malloc_2.cpp:134-143 | Size 0 or above 10^8 gives null and no change. Otherwise it gives a used block of at least that size. |
| FirstFit.Scalloc | HW4/malloc_2.cpp:155-166 | Each factor must be in 1..10^8 and the product within `smalloc`'s bound. With valid factors it is `smalloc` of the product, so the block found holds the product. |
| FirstFit.Sfree | HW4/malloc_2.cpp:173-177 | A null pointer changes nothing. Otherwise the block is marked free. |
| FirstFit.Srealloc | HW4/malloc_2.cpp:192-208 | Bad size gives null. A null pointer allocates. A size that fits returns the old pointer. Otherwise it yields the block `smalloc` would give for the new size, and the old one is freed. When `smalloc` fails the heap is unchanged. |
| FirstFit.StatisticsFacts | HW4/malloc_2.cpp:221-262 | Metadata bytes are blocks × 32. The free counts are at most the allocated counts. |
| FirstFit.FreeThenMallocReuses | HW4/malloc_2.cpp:61-77 | Freeing a block and asking for its size reuses it or an earlier block, and the heap does not grow. |
| Buddy.BlockOrder | HW4/malloc_3.cpp:58-67 | The halving loop computes ⌊log2((size + 32) / 128)⌋. |
| Buddy.OrderBracket | HW4/malloc_3.cpp:58-67 | The order's span is at most size + 32 (or the order is 0). The next order's span exceeds size + 32. |
| Buddy.OrderOfCapacity | HW4/malloc_3.cpp:58-67 | `blockOrder(128 * 2^k - 32) = k`. |
| Buddy.OrderMonotone | HW4/malloc_3.cpp:58-67 | A larger size never gets a smaller order. |
| Buddy.OrderCeil | HW4/malloc_3.cpp:236-249 | The least order whose payload holds the size. |
| Buddy.OrderCeilVsOrder | HW4/malloc_3.cpp:58-67 | The least sufficient order is `blockOrder` or one more, and it equals `blockOrder` on full blocks. |
| Buddy.FindFrom | HW4/malloc_3.cpp:238-248 | The head of the first non-empty list at or above the order. It is none exactly when all those lists are empty. |
| Buddy.FindPotentialBlockAsWritten | HW4/malloc_3.cpp:236-249 | The search as written: the head of the first non-empty list at or above `blockOrder(size)`, none exactly when those lists are all empty. |
| Buddy.FindPotentialBlock | HW4/malloc_3.cpp:236-249 | Searching from the rounded-up order: the head of the first non-empty list at or above the least sufficient order, none exactly when those lists are all empty. Any block found can hold the request. |
| Buddy.FindPotentialBlockTooSmall | HW4/malloc_3.cpp:236-249 | Searching from `blockOrder(200) = 0` returns a 96-byte block for a 200-byte request. |
| Buddy.SplitBlock | HW4/malloc_3.cpp:194-208 | The total size (payload + 32) is halved, and the buddy header sits at block + half. |
| Buddy.SplitLoop | HW4/malloc_3.cpp:210-216 | It stops when the next half could not hold the request with its header, or would drop below 128 bytes. It keeps the request and never goes below one 128-byte unit. |
| Buddy.SplitLoopOfCapacity | HW4/malloc_3.cpp:210-216 | A full block of order k is split down to the least sufficient order, releasing one buddy of each order in between, largest first. |
| Buddy.SpanIsPow2 | HW4/malloc_3.cpp:251-253 | An order-k block spans 2^(k+7) bytes. |
| Buddy.BuddyInvolution | HW4/malloc_3.cpp:251-253 | The buddy of the buddy is the block itself. |
| Buddy.SplitGivesBuddies | HW4/malloc_3.cpp:194-208 | Splitting an aligned block gives two aligned halves, each the other's XOR buddy. |
| Buddy.MergeStep | HW4/malloc_3.cpp:225-231 | The merged block sits at the lower address and has total size 2(s + 32). |
| Buddy.MergeUndoesSplit | HW4/malloc_3.cpp:194-231 | Merging either half of a split with its buddy gives back the original block. |
| Buddy.MergeKeepsAlignment | HW4/malloc_3.cpp:218-231 | Merging an aligned block gives an aligned block of the next order that contains it. |
| Buddy.TryToMerge | HW4/malloc_3.cpp:218-234 | The size never shrinks. Below the target it stops only when the buddy is not free, sizes differ or the block is the largest. The free blocks left are a subset. |
| Buddy.TryToMergeAligned | HW4/malloc_3.cpp:218-234 | Merging from an aligned order-k block ends on an aligned block of some order ≥ k. |
| Buddy.AlignUp | HW4/malloc_3.cpp:133-141 | The mask rounds the break up: at least the break, less than break + 2^22, and a multiple of 2^22. |
| Buddy.FirstAlloc | HW4/malloc_3.cpp:144-161 | Up to 32 blocks of 128 KiB laid end to end from the base, one per successful `sbrk`. |
| Buddy.FirstAllocAligned | HW4/malloc_3.cpp:144-161 | From an aligned base, every initial block is an aligned order-10 block. |
| Buddy.SmallocPath | HW4/malloc_3.cpp:440-447 | Size 0 or above 10^8 is refused. 128 KiB and above goes to `mmap`. The rest goes to the buddy lists. |
| Buddy.SfreePath | HW4/malloc_3.cpp:491-494 | Every block is freed on some path, and a size `smalloc` accepts is freed on the path that allocated it. |
| Buddy.RoutingAgrees | HW4/malloc_3.cpp:444-494 | With one threshold, an `mmap` block is freed and resized as `mmap`, and every buddy block as buddy. |
| Buddy.SreallocPathBoundary | HW4/malloc_3.cpp:444-523 | A 128 KiB block is `mmap` for `smalloc` and `sfree`, but buddy for `srealloc` as written. |
| Buddy.SreallocAsWritten | HW4/malloc_3.cpp:513-560 | The code's decision: a bad size fails and a null pointer allocates. Only blocks above 128 KiB are kept or moved. A grow in place happens only when the merge reaches exactly the request. |
| Buddy.Srealloc | HW4/malloc_3.cpp:513-560 | A bad size fails and a null pointer allocates. `mmap` blocks are kept or moved, never split. A buddy block shrinks in place exactly when the request fits it. A grow stays in place exactly when merging reaches at least the request. |
| Buddy.SreallocDifference | HW4/malloc_3.cpp:523-548 | The code and the corrected version differ exactly on a 128 KiB block that is not grown, and on a buddy block whose merge overshoots the request. |
| Buddy.SreallocAbandonsMerge | HW4/malloc_3.cpp:544-558 | A 96-byte block with a free buddy, grown to 200, merges to 224. The code then allocates anew because 224 != 200, while the intended version keeps the merged block. |
| Buddy.SreallocSplitsMmapBlock | HW4/malloc_3.cpp:523-540 | A 128 KiB `mmap` block shrunk to 100 bytes is split as a buddy block by the code. The intended version moves it. |
| Clearance.SetSec | HW2/kernel/hw2.c:16-39 | A caller without the capability gets -EPERM first. A negative argument gives -EINVAL with the word unchanged. Success returns 0 with bit 0, 1, 2 set exactly when sword, midnight, clamp ≥ 1, so the word is ≤ 7. |
| Clearance.DecodeMask | HW2/kernel/hw2.c:7-9 | Decoding the three flag bits of an encoded word gives the flags back. |
| Clearance.SetSecForgetsMode | HW2/kernel/hw2.c:26 | A successful call's result does not depend on the previous word. |
| Clearance.SetSecReachesEveryMask | HW2/kernel/hw2.c:26-36 | Every combination of the three flags is reachable with arguments 0 and 1. |
| Clearance.PermissionBeforeValidation | HW2/kernel/hw2.c:19-24 | With invalid arguments, an unprivileged caller still gets -EPERM and a privileged one -EINVAL. |
| Clearance.Hello | HW2/kernel/hw2.c:11-14 | Always returns 0. |
| Clearance.GetSec | HW2/kernel/hw2.c:41-43 | The stub returns 0 for every clearance name. |
| Clearance.CheckSec | HW2/kernel/hw2.c:45-47 | The stub returns 0 for every task and name. |
| Clearance.SetSecBranch | HW2/kernel/hw2.c:49-51 | The stub returns 0 for every input. |

## Left out

- Threads, mutexes, condition variables, sockets, `requestHandle`, `getRequestMetaData` and
  the clock (`HW3_works/server.c`). Critical sections are atomic steps, and a condition
  wait is a `MustWait` outcome. The VIP flag, the skip flag and timestamps are inputs.
- Server.AcceptStep: the random policy drops ⌈n/2⌉ waiting requests (`Server.RandomBranch`), not the code's ⌊n/2⌋ (`Server.RandomBranchAsWritten`). Drop-tail uses the corrected `RequestQueue.DequeueTail`. The code's `dequeueTail` dereferences NULL with one waiting request. With two or more it leaves a stale tail, and the next enqueue is lost. So the capacity and accounting promises hold for the corrected step, not for the code as written.
- Server.OverloadFacts: the same two corrections as `Server.AcceptStep`, the ⌈n/2⌉ random drop and the corrected `dequeueTail`.
- Server.Overload: what drop-head and drop-tail close is stated only when every waiting descriptor is real (non-negative). For a queued -1, the code's `!= -1` test closes nothing, and accept never hands out a negative descriptor.
- Server.DropTailFacts: it states drop-tail with the corrected `dequeueTail`. With the code's version, one waiting request means a NULL dereference, and with more the queue loses the next enqueue (`RequestQueue.DequeueTailLosesNextEnqueue`).
- `rand()`: coin flips are a finite sequence. A run that ends before the drop finishes
  is `StillFlipping`.
- Pointer-level defects of `HW3/queue.c` other than `dequeueTail`, which the sequence
  model cannot show:
  - `queueCreate` allocates `sizeof(Queue*)`, not the structure (line 29), so `RequestQueue.Create`
    states the queue the code means to build;
  - `randomDequeue` steps `r` after its node may have been freed (lines 128-133).
- `queueDestroy`, `debug` and `queuePrint`: deallocation and printing.
- The superseded draft server `HW3/server.c`, the client and the test drivers.
- Process and file-system work in `Commands.cpp`: fork/exec/wait, kill, pipes and
  redirection, directory listing, `cd`, `getcwd`, PATH lookup, all printing, and the
  bodies of the built-in commands.
- Shell.ParseCommandLine: the limit of `COMMAND_MAX_ARGS` (20) arguments is not modelled.
  A longer line overflows the array in the code.
- Shell.RemoveBackgroundSign: on an all-blank line the code stores `find_last_not_of`'s `npos` in an `unsigned int`, so the test against `npos` fails on a 64-bit target and the code indexes out of range. The model returns such a line unchanged. The only caller tests `_isBackgroundComamnd` first (Commands.cpp:622-626), which never holds for a blank line.
- Shell.IsBackgroundCommand: requires a line that is not all blank. The code indexes at
  `npos` there, which is undefined behaviour.
- Shell.RemoveFinished: the reaping done by `waitpid` is an input set of finished process IDs.
- Shell.GetLastJobId: requires a non-empty list. `back()` on an empty vector is undefined
  behaviour.
- Shell.IsSignal: `stoi`'s exception is the `StoiOutOfRange` outcome. The value's exact
  32-bit wrap is stated only through the thresholds 32 and 2^31.
- `sbrk`, `mmap`, `munmap`, `memset` and `memmove`. Their success is an input, and the
  bytes are not modelled. This includes scalloc's zeroing and srealloc's copy.
- Buddy free-list linking (`addBlock_Sbrk`, `removeFromList_Sbrk`), the in-use list, the
  `mmap` block list, and the buddy allocator's statistics functions. The free lists are
  a sequence of address sequences per order, or a map from free address to payload.
- Buddy.Srealloc: it states the plan `srealloc` picks, not the heap it leaves behind: free-list updates, the data copy and the failure of the new allocation are not modelled.
- Buddy.SreallocAsWritten: the heap left behind when a merge overshoots is not modelled. When the old block is the upper buddy, the merged block starts at the lower address, and the later `sfree(oldp)` frees the old header inside it. The merged block is then on no free list.
- `printHeapStatistics` and the debug printing. Note that the debug print computes
  metadata bytes as free blocks × 32.
- `HW4/malloc_1.cpp`, `HW4/old_malloc_3.cpp`, and the earlier `HW2/hw2.c`.
- Clearance.Hello: the kernel log line is not modelled.
- The wider kernel: `current`, task lookup by pid, and the clearance stubs' intended
  semantics, which the code does not implement.

Where the code's own comments and the code differ, the model follows the code:

- The comment at `HW3_works/server.c:114` says the random policy drops 50% of the
  waiting requests at random. The code always drops ⌊n/2⌋ requests from the head, and
  the coins only decide how long the loop runs. `RequestQueue.RandomDequeue` and
  `Server.RandomBranchAsWritten` model exactly that. The server step itself uses the
  corrected ⌈n/2⌉ drop and the corrected `dequeueTail` (see the findings).
- The skip path stamps the skipped-to request with the arrival time of the waiting
  queue's head, not its own.

## Findings

| source | as written | input that shows it | evidently intended | confidence | as-written member | corrected member |
|---|---|---|---|---|---|---|
| HW3/queue.c:88-110 | `dequeueTail` walks to the node before the tail but never moves `q->tail`. On one element, `head->next` is NULL and the walk dereferences it. | [5, 7]: pop the tail, then enqueue 9. The head walk finds [5] while the size is 2. A one-element queue dereferences NULL. | Pop the tail and leave a well-formed queue: [5, 9]. | high (not executed) | RequestQueue.DequeueTailCounterexample | RequestQueue.DequeueTail |
| HW4/malloc_3.cpp:236-249 | The search starts at `blockOrder(size)`, which rounds down. The comment at line 241 says any block found is large enough. | A request of 200 bytes has order ⌊log2(232/128)⌋ = 0, and an order-0 block holds 96 bytes. | Start at the least order whose payload holds the size (order 1 here, 224 bytes). | high (not executed) | Buddy.FindPotentialBlockTooSmall | Buddy.FindPotentialBlock |
| HW4/malloc_3.cpp:523 | `srealloc` treats a block as `mmap` only above 128 KiB (`>`). `smalloc` and `sfree` use `>=`. | A 131072-byte `mmap` block shrunk to 100 bytes is split as if it lay in the buddy heap. | The same `>=` threshold everywhere. | high (not executed) | Buddy.SreallocSplitsMmapBlock | Buddy.RoutingAgrees |
| HW3_works/server.c:113-116 | The random policy drops ⌊n/2⌋ waiting requests, then admits. | Capacity 2, one request handled, one waiting: 0 are dropped and the arrival is queued, giving load 3. | Free at least one slot: drop ⌈n/2⌉. | medium (not executed) | Server.RandomBranchAsWrittenOverfills | Server.RandomBranchKeepsCapacity |
| HW4/malloc_3.cpp:544-558 | After merging to grow in place, the merged block is kept only if its size equals the request exactly. | A 96-byte block at address 0 whose buddy at 128 is free, grown to 200: it merges to 224, which already holds the request, and then allocates anew and moves the data anyway. | Keep the merged block whenever it holds the request. | medium (not executed) | Buddy.SreallocAbandonsMerge | Buddy.Srealloc |

=== FILE: bits.dfy ===
/** Bit-level arithmetic on naturals, enough to state the buddy allocator's address
    tricks: powers of two, the bits of a number, exclusive or, and masking with and.
    Machine words are naturals below a power of two; the operations are defined bit by
    bit from the lowest, the way the hardware computes them. */
module Bits {

  function Pow2(k: nat): (p: nat)
    ensures p >= 1
  {
    if k == 0 then 1 else 2 * Pow2(k - 1)
  }

  lemma {:induction false} Pow2Monotone(j: nat, n: nat)
    requires j <= n
    ensures Pow2(j) <= Pow2(n)
    decreases n
  {
    if j < n {
      Pow2Monotone(j, n - 1);
    }
  }

  /** Bit `k` of `a`. */
  function Bit(a: nat, k: nat): nat {
    if k == 0 then a % 2 else Bit(a / 2, k - 1)
  }

  /** The value of the lowest `k` bits of `a`. */
  function Low(a: nat, k: nat): nat {
    if k == 0 then 0 else a % 2 + 2 * Low(a / 2, k - 1)
  }

  /** The lowest `k` bits of `a` are clear. */
  predicate AlignedTo(a: nat, k: nat) {
    k == 0 || (a % 2 == 0 && AlignedTo(a / 2, k - 1))
  }

  /** Bitwise exclusive or (`^`). */
  function Xor(a: nat, b: nat): nat
    decreases a + b
  {
    if a == 0 && b == 0 then 0
    else 2 * Xor(a / 2, b / 2) + (a % 2 + b % 2) % 2
  }

  /** Bitwise and (`&`). */
  function And(a: nat, b: nat): nat
    decreases a + b
  {
    if a == 0 || b == 0 then 0
    else 2 * And(a / 2, b / 2) + (a % 2) * (b % 2)
  }

  lemma {:induction false} XorZero(a: nat)
    ensures Xor(a, 0) == a
    decreases a
  {
    if a != 0 {
      XorZero(a / 2);
    }
  }

  /** Exclusive or with the same value twice is the identity. */
  lemma {:induction false} XorSelfInverse(a: nat, b: nat)
    ensures Xor(Xor(a, b), b) == a
    decreases a + b
  {
    if b == 0 {
      XorZero(a);
      XorZero(Xor(a, 0));
    } else {
      var x := Xor(a, b);
      XorSelfInverse(a / 2, b / 2);
      XorHalves(a, b);
      XorUnfold(x, b);
      XorParity(a % 2, b % 2);
    }
  }

  /** The recursive step of `Xor` holds even when both arguments are 0. */
  lemma XorUnfold(a: nat, b: nat)
    ensures Xor(a, b) == 2 * Xor(a / 2, b / 2) + (a % 2 + b % 2) % 2
  {
  }

  /** The high bits and the low bit of an exclusive or. */
  lemma XorHalves(a: nat, b: nat)
    ensures Xor(a, b) / 2 == Xor(a / 2, b / 2)
    ensures Xor(a, b) % 2 == (a % 2 + b % 2) % 2
  {
    XorUnfold(a, b);
  }

  lemma XorParity(pa: nat, pb: nat)
    requires pa < 2 && pb < 2
    ensures ((pa + pb) % 2 + pb) % 2 == pa
  {
  }

  /** Exclusive or with a power of two flips that one bit: it adds the power when the bit
      is clear and subtracts it when the bit is set. */
  lemma {:induction false} XorPow2(a: nat, k: nat)
    ensures Bit(a, k) == 0 ==> Xor(a, Pow2(k)) == a + Pow2(k)
    ensures Bit(a, k) == 1 ==> Xor(a, Pow2(k)) == a - Pow2(k)
    decreases k
  {
    if k == 0 {
      XorZero(a / 2);
    } else {
      XorPow2(a / 2, k - 1);
    }
  }

  lemma {:induction false} BitIsBinary(a: nat, k: nat)
    ensures Bit(a, k) == 0 || Bit(a, k) == 1
    decreases k
  {
    if k > 0 {
      BitIsBinary(a / 2, k - 1);
    }
  }

  /** A number whose lowest `k + 1` bits are clear has bit `k` clear; adding `2^k` to it sets
      that bit and keeps the lower ones clear. */
  lemma {:induction false} AlignedSplit(a: nat, k: nat)
    requires AlignedTo(a, k + 1)
    ensures AlignedTo(a, k) && Bit(a, k) == 0
    ensures AlignedTo(a + Pow2(k), k) && Bit(a + Pow2(k), k) == 1
    decreases k
  {
    if k > 0 {
      AlignedSplit(a / 2, k - 1);
      assert (a + Pow2(k)) / 2 == a / 2 + Pow2(k - 1);
    }
  }

  /** A number with bit `k` set and the `k` bits below clear, less `2^k`, has all `k + 1`
      low bits clear. */
  lemma {:induction false} AlignedJoin(a: nat, k: nat)
    requires AlignedTo(a, k) && Bit(a, k) == 1
    ensures a >= Pow2(k) && AlignedTo(a - Pow2(k), k + 1)
    decreases k
  {
    if k > 0 {
      AlignedJoin(a / 2, k - 1);
      assert (a - Pow2(k)) / 2 == a / 2 - Pow2(k - 1);
    }
  }

  lemma {:induction false} AlignedWeaken(a: nat, k: nat)
    requires AlignedTo(a, k + 1)
    ensures AlignedTo(a, k)
  {
    AlignedSplit(a, k);
  }

  /** Clear low bits mean a multiple of the power of two. */
  lemma {:induction false} AlignedMultiple(a: nat, k: nat)
    requires AlignedTo(a, k)
    ensures exists c: nat :: a == Pow2(k) * c
    decreases k
  {
    if k == 0 {
      assert a == Pow2(0) * a;
    } else {
      AlignedMultiple(a / 2, k - 1);
      var c: nat :| a / 2 == Pow2(k - 1) * c;
      assert a == Pow2(k) * c;
    }
  }

  lemma {:induction false} LowBound(a: nat, k: nat)
    ensures Low(a, k) < Pow2(k) && Low(a, k) <= a
    decreases k
  {
    if k > 0 {
      LowBound(a / 2, k - 1);
    }
  }

  lemma {:induction false} LowOfSmall(a: nat, k: nat)
    requires a < Pow2(k)
    ensures Low(a, k) == a
    decreases k
  {
    if k > 0 {
      LowOfSmall(a / 2, k - 1);
    }
  }

  /** Taking away the low bits leaves them clear. */
  lemma {:induction false} ClearLowAligned(a: nat, k: nat)
    ensures Low(a, k) <= a && AlignedTo(a - Low(a, k), k)
    decreases k
  {
    LowBound(a, k);
    if k > 0 {
      ClearLowAligned(a / 2, k - 1);
      assert (a - Low(a, k)) / 2 == a / 2 - Low(a / 2, k - 1);
    }
  }

  /** And with a mask of `n` one bits keeps a number below `2^n`. */
  lemma {:induction false} AndOnes(a: nat, n: nat)
    requires a < Pow2(n)
    ensures And(a, Pow2(n) - 1) == a
    decreases n
  {
    if n > 0 && a != 0 {
      AndOnes(a / 2, n - 1);
    }
  }

  /** And with the mask whose bits `j .. n-1` are set clears the low `j` bits of a number
      below `2^n`. */
  lemma {:induction false} AndClearsLow(a: nat, n: nat, j: nat)
    requires j <= n && a < Pow2(n)
    ensures Pow2(j) <= Pow2(n) && Low(a, j) <= a && And(a, Pow2(n) - Pow2(j)) == a - Low(a, j)
    decreases j
  {
    LowBound(a, j);
    Pow2Monotone(j, n);
    if j == 0 {
      AndOnes(a, n);
    } else if a == 0 {
      LowOfSmall(0, j);
    } else if n == j {
      LowOfSmall(a, j);
    } else {
      var m := Pow2(n) - Pow2(j);
      assert m / 2 == Pow2(n - 1) - Pow2(j - 1) && m % 2 == 0;
      AndClearsLow(a / 2, n - 1, j - 1);
    }
  }
}

=== FILE: buddy.dfy ===
/** The size and address arithmetic of the buddy allocator in HW4/malloc_3.cpp: block
    orders, heap alignment, the XOR buddy address, splitting and merging, and the size
    thresholds that route a request to `mmap` or to the buddy lists. A block is its header
    address and its payload size; the header is 32 bytes, so a block of order `k` spans
    `128 * 2^k` bytes and carries `128 * 2^k - 32` bytes of payload. */
module Buddy {
  import opened Bits
  import opened Wrappers

  const MetaDataSize: nat := 32
  const BlockUnit: nat := 128
  const MaxOrder: nat := 10
  /** `MAX_BLOCK_SIZE`: 128 KiB, the span of an order-10 block and the `mmap` threshold. */
  const MaxBlockSize: nat := 128 * 1024
  const InitNumBlocks: nat := 32
  /** `ALLIGNMEMT_FACTOR`: the heap start is rounded up to a multiple of 32 * 128 KiB = 2^22. */
  const AlignmentFactor: nat := 32 * 128 * 1024
  const TooMuchSize: nat := 100_000_000

  /** The payload of a block of order `k`. */
  function Capacity(k: nat): nat {
    BlockUnit * Pow2(k) - MetaDataSize
  }

  // ------------------------------------------------------------------ orders

  /** ⌊log2 n⌋, with 0 for n ≤ 1. */
  function FloorLog2(n: nat): nat {
    if n <= 1 then 0 else 1 + FloorLog2(n / 2)
  }

  /** The order `blockOrder` computes: ⌊log2((size + 32) / 128)⌋, the divisions rounding down. */
  function Order(size: nat): nat {
    FloorLog2((MetaDataSize + size) / BlockUnit)
  }

  /** `blockOrder` (HW4/malloc_3.cpp:58-67): halve the number of 128-byte units until one
      (or none) is left, counting the halvings. */
  method BlockOrder(size: nat) returns (order: nat)
    ensures order == Order(size)
  {
    var units: nat := (MetaDataSize + size) / BlockUnit;
    order := 0;
    while units > 1
      invariant order + FloorLog2(units) == Order(size)
    {
      units := units / 2;
      order := order + 1;
    }
  }

  lemma {:induction false} FloorLog2Bracket(n: nat)
    ensures n >= 1 ==> Pow2(FloorLog2(n)) <= n < Pow2(FloorLog2(n) + 1)
  {
    if n > 1 {
      FloorLog2Bracket(n / 2);
    }
  }

  lemma {:induction false} FloorLog2OfPow2(k: nat)
    ensures FloorLog2(Pow2(k)) == k
  {
    if k > 0 {
      FloorLog2OfPow2(k - 1);
      assert Pow2(k) / 2 == Pow2(k - 1);
    }
  }

  lemma {:induction false} FloorLog2Monotone(m: nat, n: nat)
    requires m <= n
    ensures FloorLog2(m) <= FloorLog2(n)
  {
    if m > 1 {
      FloorLog2Monotone(m / 2, n / 2);
    }
  }

  /** What the order means: the block span `128 * 2^order` is at most `size + 32` (unless
      the order is 0), and the next order's span exceeds it. So the order rounds down. */
  lemma OrderBracket(size: nat)
    ensures var k := Order(size);
            && size + MetaDataSize < BlockUnit * Pow2(k + 1)
            && (k == 0 || BlockUnit * Pow2(k) <= size + MetaDataSize)
  {
    FloorLog2Bracket((MetaDataSize + size) / BlockUnit);
  }

  /** A full block of order `k` maps back to order `k`. */
  lemma OrderOfCapacity(k: nat)
    ensures Order(Capacity(k)) == k
  {
    assert (MetaDataSize + Capacity(k)) / BlockUnit == Pow2(k);
    FloorLog2OfPow2(k);
  }

  /** A larger request never gets a smaller order. */
  lemma OrderMonotone(a: nat, b: nat)
    requires a <= b
    ensures Order(a) <= Order(b)
  {
    FloorLog2Monotone((MetaDataSize + a) / BlockUnit, (MetaDataSize + b) / BlockUnit);
  }

  /** The least order whose blocks can hold `size` bytes, searching upwards from `k`. */
  function OrderCeilFrom(size: nat, k: nat): (r: nat)
    requires forall j :: 0 <= j < k ==> Capacity(j) < size
    ensures r >= k && Capacity(r) >= size
    ensures forall j :: 0 <= j < r ==> Capacity(j) < size
    decreases size - Capacity(k)
  {
    if Capacity(k) >= size then k else OrderCeilFrom(size, k + 1)
  }

  /** The order the search for a free block should start from: the least order whose
      payload is at least the request. */
  function OrderCeil(size: nat): (r: nat)
    ensures Capacity(r) >= size
    ensures forall j :: 0 <= j < r ==> Capacity(j) < size
  {
    OrderCeilFrom(size, 0)
  }

  /** The rounded-up order agrees with `blockOrder` on full blocks and is at most one above
      it everywhere. */
  lemma OrderCeilVsOrder(size: nat)
    ensures Order(size) <= OrderCeil(size) <= Order(size) + 1
    ensures forall k :: Capacity(k) == size ==> OrderCeil(size) == k == Order(size)
  {
    var f := Order(size);
    var c := OrderCeil(size);
    OrderBracket(size);
    assert Capacity(f + 1) >= size;
    CapacityStrict(c, f);
    forall k | Capacity(k) == size
      ensures c == k == Order(size)
    {
      OrderOfCapacity(k);
      CapacityStrict(c, k);
      CapacityStrict(k, c);
    }
  }

  /** Higher orders carry strictly more payload. */
  lemma CapacityStrict(j: nat, n: nat)
    ensures j < n ==> Capacity(j) < Capacity(n)
  {
    if j < n {
      Pow2Grows(j, n);
    }
  }

  lemma {:induction false} Pow2Grows(j: nat, n: nat)
    requires j < n
    ensures Pow2(j) < Pow2(n)
    decreases n
  {
    if j < n - 1 {
      Pow2Grows(j, n - 1);
    }
  }

  // ------------------------------------------------------------ free lists

  /** The free lists: for each order 0..10, the header addresses of its free blocks. */
  datatype FreeLists = FreeLists(lists: seq<seq<nat>>)

  predicate WellFormed(f: FreeLists) {
    |f.lists| == MaxOrder + 1
  }

  /** `findPotentialBlock_Sbrk` (HW4/malloc_3.cpp:236-249) from a given order: the head of the
      first non-empty list at that order or above (every block on a list is free), as its
      order and address. */
  function FindFrom(f: FreeLists, from: nat): (r: Option<(nat, nat)>)
    requires WellFormed(f)
    ensures r.Some? ==> from <= r.value.0 <= MaxOrder && |f.lists[r.value.0]| > 0
                        && r.value.1 == f.lists[r.value.0][0]
    ensures r.Some? ==> forall i :: from <= i < r.value.0 ==> |f.lists[i]| == 0
    ensures r.None? <==> forall i :: from <= i <= MaxOrder ==> |f.lists[i]| == 0
    decreases MaxOrder + 1 - from
  {
    if from > MaxOrder then None
    else if |f.lists[from]| > 0 then Some((from, f.lists[from][0]))
    else FindFrom(f, from + 1)
  }

  /** The search as written: it starts at `blockOrder(size)`, which rounds down. */
  function FindPotentialBlockAsWritten(f: FreeLists, size: nat): (r: Option<(nat, nat)>)
    requires WellFormed(f)
    ensures r.Some? ==> Order(size) <= r.value.0 <= MaxOrder && |f.lists[r.value.0]| > 0 && r.value.1 == f.lists[r.value.0][0]
    ensures r.None? <==> forall i :: Order(size) <= i <= MaxOrder ==> |f.lists[i]| == 0
  {
    FindFrom(f, Order(size))
  }

  /** The search started at the rounded-up order: whatever it finds can hold the request. */
  function FindPotentialBlock(f: FreeLists, size: nat): (r: Option<(nat, nat)>)
    requires WellFormed(f)
    ensures r.Some? ==> Capacity(r.value.0) >= size
    ensures r.Some? ==> OrderCeil(size) <= r.value.0 <= MaxOrder && |f.lists[r.value.0]| > 0
                        && r.value.1 == f.lists[r.value.0][0]
    ensures r.None? <==> forall i :: OrderCeil(size) <= i <= MaxOrder ==> |f.lists[i]| == 0
  {
    var r := FindFrom(f, OrderCeil(size));
    CapacityMonotone(OrderCeil(size), if r.Some? then r.value.0 else OrderCeil(size));
    r
  }

  lemma CapacityMonotone(j: nat, k: nat)
    requires j <= k
    ensures Capacity(j) <= Capacity(k)
  {
    Pow2Monotone(j, k);
  }

  /** The comment at line 241 claims any block found is big enough. With an order-0 block on
      its list, a request for 200 bytes (order ⌊log2(232 / 128)⌋ = 0) gets a 96-byte block. */
  lemma FindPotentialBlockTooSmall(f: FreeLists)
    requires WellFormed(f) && |f.lists[0]| > 0
    ensures FindPotentialBlockAsWritten(f, 200) == Some((0, f.lists[0][0]))
    ensures Capacity(0) == 96 < 200
    ensures Capacity(OrderCeil(200)) == 224
  {
    assert Order(200) == 0;
    assert Capacity(0) == 96 < 200 && Capacity(1) == 224;
    assert OrderCeil(200) == 1;
  }

  // ------------------------------------------------------------------ split

  /** `splitBlock_Sbrk` (HW4/malloc_3.cpp:194-208): the span is halved; the block keeps the
      lower half and a free buddy header is written at the upper half. The result is the
      new payload and the buddy's address. */
  function SplitBlock(addr: nat, size: nat): (r: (nat, nat))
    requires (size + MetaDataSize) / 2 >= MetaDataSize
    ensures r.1 == addr + r.0 + MetaDataSize
    ensures 2 * (r.0 + MetaDataSize) <= size + MetaDataSize < 2 * (r.0 + MetaDataSize) + 2
  {
    var half := (size + MetaDataSize) / 2;
    (half - MetaDataSize, addr + half)
  }

  /** `checkIfNeedToSplit_Sbrk` (HW4/malloc_3.cpp:210-216): split while the half span still
      holds the request with its header and is at least one 128-byte unit. The result is
      the final payload and the payloads of the buddies released, in order. */
  function SplitLoop(size: nat, request: nat): (r: (nat, seq<nat>))
    ensures r.0 <= size
    ensures (r.0 + MetaDataSize) / 2 < request + MetaDataSize || (r.0 + MetaDataSize) / 2 < BlockUnit
    ensures request <= size ==> request <= r.0
    ensures BlockUnit <= size + MetaDataSize ==> BlockUnit <= r.0 + MetaDataSize
    ensures r.1 == [] <==> r.0 == size
    decreases size
  {
    var half := (size + MetaDataSize) / 2;
    if half >= request + MetaDataSize && half >= BlockUnit then
      var (rest, _) := SplitBlock(0, size);
      var (last, buddies) := SplitLoop(rest, request);
      (last, [rest] + buddies)
    else (size, [])
  }

  /** Splitting a full block of order `k` for a request of `request` bytes ends at the order
      the rounded-up search would choose (never below 0), releasing one buddy of each order
      in between, largest first. */
  lemma {:induction false} SplitLoopOfCapacity(k: nat, request: nat)
    requires request <= Capacity(k) && OrderCeil(request) <= k
    ensures var r := SplitLoop(Capacity(k), request);
            && r.0 == Capacity(OrderCeil(request))
            && |r.1| == k - OrderCeil(request)
            && forall i :: 0 <= i < |r.1| ==> r.1[i] == Capacity(k - 1 - i)
  {
    SplitLoopReleases(k, request);
    ReleasedOrders(k, OrderCeil(request));
  }

  /** The buddies released while splitting from order `k` down to order `c`, largest first. */
  function Released(k: nat, c: nat): seq<nat>
    decreases k
  {
    if k <= c then [] else [Capacity(k - 1)] + Released(k - 1, c)
  }

  lemma {:induction false} ReleasedOrders(k: nat, c: nat)
    requires c <= k
    ensures |Released(k, c)| == k - c
    ensures forall i :: 0 <= i < k - c ==> Released(k, c)[i] == Capacity(k - 1 - i)
    decreases k
  {
    if k > c {
      ReleasedOrders(k - 1, c);
      forall i | 0 <= i < k - c
        ensures Released(k, c)[i] == Capacity(k - 1 - i)
      {
        if i > 0 {
          assert Released(k, c)[i] == Released(k - 1, c)[i - 1];
        }
      }
    }
  }

  lemma {:induction false} SplitLoopReleases(k: nat, request: nat)
    requires request <= Capacity(k) && OrderCeil(request) <= k
    ensures SplitLoop(Capacity(k), request) == (Capacity(OrderCeil(request)), Released(k, OrderCeil(request)))
    decreases k
  {
    var half := (Capacity(k) + MetaDataSize) / 2;
    if half >= request + MetaDataSize && half >= BlockUnit {
      HalfSpan(k);
      OrderCeilAtMost(request, k - 1);
      SplitLoopReleases(k - 1, request);
      SplitLoopUnfold(k, request);
    } else {
      SplitStops(k, request);
    }
  }

  /** One split of a full block of order `k` leaves a full block of order `k - 1`. */
  lemma SplitLoopUnfold(k: nat, request: nat)
    requires k > 0
    requires (Capacity(k) + MetaDataSize) / 2 >= request + MetaDataSize
    requires (Capacity(k) + MetaDataSize) / 2 >= BlockUnit
    ensures var sub := SplitLoop(Capacity(k - 1), request);
            SplitLoop(Capacity(k), request) == (sub.0, [Capacity(k - 1)] + sub.1)
  {
    HalfSpan(k);
  }

  /** Any order whose payload holds the request is at or above the least such order. */
  lemma OrderCeilAtMost(request: nat, j: nat)
    requires request <= Capacity(j)
    ensures OrderCeil(request) <= j
  {
  }

  /** Halving the span of a block of order `k > 0` gives the span of order `k - 1`. */
  lemma HalfSpan(k: nat)
    ensures k > 0 ==> (Capacity(k) + MetaDataSize) / 2 == BlockUnit * Pow2(k - 1)
    ensures k > 0 ==> (Capacity(k) + MetaDataSize) / 2 - MetaDataSize == Capacity(k - 1)
    ensures k == 0 ==> (Capacity(k) + MetaDataSize) / 2 < BlockUnit
  {
  }

  /** When the half span can no longer hold the request, or is below one unit, the block's
      order is already the least order holding the request. */
  lemma SplitStops(k: nat, request: nat)
    requires request <= Capacity(k) && OrderCeil(request) <= k
    requires (Capacity(k) + MetaDataSize) / 2 < request + MetaDataSize || (Capacity(k) + MetaDataSize) / 2 < BlockUnit
    ensures OrderCeil(request) == k
  {
    HalfSpan(k);
    CapacityStrict(OrderCeil(request), k);
    if k > 0 {
      Pow2Monotone(0, k - 1);
      if OrderCeil(request) <= k - 1 {
        CapacityMonotone(OrderCeil(request), k - 1);
      }
    }
  }

  // -------------------------------------------------------------- buddies

  /** `findBuddy_Sbrk` (HW4/malloc_3.cpp:251-253): the header address XOR the block's span. */
  function FindBuddy(addr: nat, size: nat): nat {
    Xor(addr, size + MetaDataSize)
  }

  /** A block of order `k` whose address is a multiple of its span. */
  predicate AlignedBlock(addr: nat, k: nat) {
    AlignedTo(addr, k + 7)
  }

  lemma SpanIsPow2(k: nat)
    ensures Capacity(k) + MetaDataSize == Pow2(k + 7)
  {
    Pow2Seven(k);
  }

  lemma {:induction false} Pow2Seven(k: nat)
    ensures Pow2(k + 7) == 128 * Pow2(k)
    decreases k
  {
    if k > 0 {
      Pow2Seven(k - 1);
    } else {
      Pow2Values();
    }
  }

  /** The powers of two the allocator's constants are. */
  lemma Pow2Values()
    ensures Pow2(7) == BlockUnit && Pow2(10) == 1024
    ensures Pow2(17) == MaxBlockSize && Pow2(22) == AlignmentFactor
  {
    assert Pow2(1) == 2;
    assert Pow2(2) == 4;
    assert Pow2(3) == 8;
    assert Pow2(4) == 16;
    assert Pow2(5) == 32;
    assert Pow2(6) == 64;
    assert Pow2(7) == 128;
    assert Pow2(8) == 256;
    assert Pow2(9) == 512;
    assert Pow2(10) == 1024;
    assert Pow2(11) == 2048;
    assert Pow2(12) == 4096;
    assert Pow2(13) == 8192;
    assert Pow2(14) == 16384;
    assert Pow2(15) == 32768;
    assert Pow2(16) == 65536;
    assert Pow2(17) == 131072;
    assert Pow2(18) == 262144;
    assert Pow2(19) == 524288;
    assert Pow2(20) == 1048576;
    assert Pow2(21) == 2097152;
  }

  /** The buddy of a buddy is the block itself. */
  lemma BuddyInvolution(addr: nat, size: nat)
    ensures FindBuddy(FindBuddy(addr, size), size) == addr
  {
    XorSelfInverse(addr, size + MetaDataSize);
  }

  /** Splitting an aligned block of order `k + 1` gives two aligned blocks of order `k`, each
      the other's buddy. */
  lemma SplitGivesBuddies(addr: nat, k: nat)
    requires AlignedBlock(addr, k + 1)
    ensures var (size, buddy) := SplitBlock(addr, Capacity(k + 1));
            && size == Capacity(k) && buddy == addr + Pow2(k + 7)
            && AlignedBlock(addr, k) && AlignedBlock(buddy, k)
            && FindBuddy(addr, size) == buddy && FindBuddy(buddy, size) == addr
  {
    SpanIsPow2(k);
    SpanIsPow2(k + 1);
    AlignedSplit(addr, k + 7);
    XorPow2(addr, k + 7);
    XorPow2(addr + Pow2(k + 7), k + 7);
  }

  /** One merge step of `tryToMerge_Sbrk` (HW4/malloc_3.cpp:225-231): the merged block sits
      at the lower of the two addresses and spans twice as much. */
  function MergeStep(addr: nat, size: nat, buddy: nat): (r: (nat, nat))
    ensures r.0 <= addr && r.0 <= buddy && (r.0 == addr || r.0 == buddy)
    ensures r.1 + MetaDataSize == 2 * (size + MetaDataSize)
  {
    (if buddy < addr then buddy else addr, 2 * (size + MetaDataSize) - MetaDataSize)
  }

  /** Merging either half with its buddy undoes the split. */
  lemma MergeUndoesSplit(addr: nat, k: nat)
    requires AlignedBlock(addr, k + 1)
    ensures var (size, buddy) := SplitBlock(addr, Capacity(k + 1));
            && MergeStep(addr, size, FindBuddy(addr, size)) == (addr, Capacity(k + 1))
            && MergeStep(buddy, size, FindBuddy(buddy, size)) == (addr, Capacity(k + 1))
  {
    SplitGivesBuddies(addr, k);
  }

  /** Merging an aligned block with its buddy gives an aligned block of the next order that
      contains it. */
  lemma MergeKeepsAlignment(addr: nat, k: nat)
    requires AlignedBlock(addr, k)
    ensures var (a, s) := MergeStep(addr, Capacity(k), FindBuddy(addr, Capacity(k)));
            && s == Capacity(k + 1) && AlignedBlock(a, k + 1)
            && a <= addr < a + s + MetaDataSize
  {
    SpanIsPow2(k);
    SpanIsPow2(k + 1);
    BitIsBinary(addr, k + 7);
    XorPow2(addr, k + 7);
    if Bit(addr, k + 7) == 0 {
      assert AlignedTo(addr, k + 8) by {
        AlignedBit(addr, k + 7);
      }
    } else {
      AlignedJoin(addr, k + 7);
    }
  }

  lemma {:induction false} AlignedBit(a: nat, k: nat)
    requires AlignedTo(a, k) && Bit(a, k) == 0
    ensures AlignedTo(a, k + 1)
    decreases k
  {
    if k > 0 {
      AlignedBit(a / 2, k - 1);
    }
  }

  /** `tryToMerge_Sbrk` (HW4/malloc_3.cpp:218-234): while the block is smaller than `target`,
      merge it with its buddy as long as the buddy is free with the same size and the block
      is below the largest order. `free` maps each free block's address to its payload.
      The result is the final address and payload and the free blocks left. */
  function TryToMerge(free: map<nat, nat>, addr: nat, size: nat, target: nat): (r: (nat, nat, map<nat, nat>))
    ensures r.1 >= size
    ensures r.1 < target ==>
              var b := FindBuddy(r.0, r.1);
              b !in r.2 || r.2[b] != r.1 || r.1 >= MaxBlockSize - MetaDataSize
    ensures r.2.Keys <= free.Keys && forall a :: a in r.2 ==> r.2[a] == free[a]
    ensures r.1 == size ==> r.0 == addr && r.2 == free
    decreases MaxBlockSize - size
  {
    if size >= target then (addr, size, free)
    else
      var b := FindBuddy(addr, size);
      if b !in free || free[b] != size || size >= MaxBlockSize - MetaDataSize then (addr, size, free)
      else
        var (a, s) := MergeStep(addr, size, b);
        TryToMerge(free - {b}, a, s, target)
  }

  /** Merging from an aligned block of order `k` ends on an aligned block of some order
      `j ≥ k`. */
  lemma {:induction false} TryToMergeAligned(free: map<nat, nat>, addr: nat, k: nat, target: nat)
    requires AlignedBlock(addr, k)
    ensures var r := TryToMerge(free, addr, Capacity(k), target);
            exists j :: j >= k && r.1 == Capacity(j) && AlignedBlock(r.0, j)
    decreases MaxBlockSize - Capacity(k)
  {
    var size := Capacity(k);
    var b := FindBuddy(addr, size);
    if size >= target || b !in free || free[b] != size || size >= MaxBlockSize - MetaDataSize {
      assert TryToMerge(free, addr, size, target) == (addr, size, free);
    } else {
      var (a, s) := MergeStep(addr, size, b);
      MergeKeepsAlignment(addr, k);
      assert TryToMerge(free, addr, size, target) == TryToMerge(free - {b}, a, Capacity(k + 1), target);
      TryToMergeAligned(free - {b}, a, k + 1, target);
    }
  }

  // -------------------------------------------------------------- alignment

  /** `allignmentForHeap` (HW4/malloc_3.cpp:133-141): `(address + F - 1) & ~(F - 1)` on a
      64-bit word, with `F` the alignment factor. The break must be a user address, so the
      sum stays below 2^63 and the signed arithmetic does not overflow. */
  function AlignUp(address: nat): (aligned: nat)
    requires address + AlignmentFactor - 1 < Pow2(63)
    ensures address <= aligned < address + AlignmentFactor
    ensures aligned % AlignmentFactor == 0
  {
    var y := address + AlignmentFactor - 1;
    Pow2Grows(63, 64);
    ClearLowBits(y, 64)
  }

  /** `y & ~(F - 1)` on an `n`-bit word: `y` rounded down to a multiple of the alignment
      factor. */
  function ClearLowBits(y: nat, n: nat): (a: nat)
    requires 22 <= n && y < Pow2(n)
    ensures a <= y < a + AlignmentFactor && a % AlignmentFactor == 0
  {
    RoundDown(y, n);
    And(y, Pow2(n) - Pow2(22))
  }

  /** Masking off the low 22 bits of an `n`-bit word rounds it down to a multiple of the
      alignment factor. */
  lemma RoundDown(y: nat, n: nat)
    requires 22 <= n && y < Pow2(n)
    ensures Pow2(22) <= Pow2(n)
    ensures var a := And(y, Pow2(n) - Pow2(22));
            a <= y < a + AlignmentFactor && a % AlignmentFactor == 0
  {
    Pow2Values();
    AndClearsLow(y, n, 22);
    LowBound(y, 22);
    ClearLowAligned(y, 22);
    AlignedMod(y - Low(y, 22));
  }

  lemma AlignedMod(a: nat)
    requires AlignedTo(a, 22)
    ensures a % AlignmentFactor == 0
  {
    AlignedMultiple(a, 22);
    Pow2Values();
    var c: nat :| a == Pow2(22) * c;
    assert a == AlignmentFactor * c;
  }

  /** `firstAlloc_Sbrk` (HW4/malloc_3.cpp:144-161) after alignment: up to 32 free blocks of
      the largest order laid end to end from the aligned break; `granted` is how many of the
      `sbrk` calls succeed. */
  function FirstAlloc(base: nat, granted: nat): (blocks: seq<nat>)
    ensures |blocks| == if granted < InitNumBlocks then granted else InitNumBlocks
    ensures forall i :: 0 <= i < |blocks| ==> blocks[i] == base + i * MaxBlockSize
  {
    var n := if granted < InitNumBlocks then granted else InitNumBlocks;
    seq(n, i requires 0 <= i < n => base + i * MaxBlockSize)
  }

  /** The initial blocks are full order-10 blocks, each aligned to its span when the base
      is aligned to the alignment factor. */
  lemma FirstAllocAligned(base: nat, granted: nat)
    requires AlignedTo(base, 22)
    ensures Capacity(MaxOrder) == MaxBlockSize - MetaDataSize
    ensures forall i :: 0 <= i < |FirstAlloc(base, granted)| ==> AlignedBlock(FirstAlloc(base, granted)[i], MaxOrder)
  {
    Pow2Values();
    var blocks := FirstAlloc(base, granted);
    forall i | 0 <= i < |blocks|
      ensures AlignedBlock(blocks[i], MaxOrder)
    {
      AlignedStep(base, i);
    }
  }

  lemma {:induction false} AlignedStep(base: nat, i: nat)
    requires AlignedTo(base, 22)
    ensures AlignedTo(base + i * MaxBlockSize, 17)
    decreases i
  {
    if i == 0 {
      AlignedDown(base, 17, 22);
    } else {
      AlignedStep(base, i - 1);
      AlignedAddPow(base + (i - 1) * MaxBlockSize, 17);
      Pow2Values();
    }
  }

  lemma {:induction false} AlignedDown(a: nat, j: nat, n: nat)
    requires j <= n && AlignedTo(a, n)
    ensures AlignedTo(a, j)
    decreases n
  {
    if j < n {
      AlignedWeaken(a, n - 1);
      AlignedDown(a, j, n - 1);
    }
  }

  lemma {:induction false} AlignedAddPow(a: nat, k: nat)
    requires AlignedTo(a, k)
    ensures AlignedTo(a + Pow2(k), k)
    decreases k
  {
    if k > 0 {
      AlignedAddPow(a / 2, k - 1);
      assert (a + Pow2(k)) / 2 == a / 2 + Pow2(k - 1);
    }
  }

  // ---------------------------------------------------------------- routing

  /** Where a request goes. */
  datatype Path = Refused | MmapPath | BuddyPath

  predicate BadSize(size: nat) {
    size == 0 || size > TooMuchSize
  }

  /** `smalloc` (HW4/malloc_3.cpp:440-447): bad sizes are refused, 128 KiB and above go to
      `mmap`, the rest to the buddy lists. */
  function SmallocPath(size: nat): (p: Path)
    ensures p == Refused <==> BadSize(size)
    ensures p == MmapPath <==> !BadSize(size) && size >= MaxBlockSize
  {
    if BadSize(size) then Refused
    else if size >= MaxBlockSize then MmapPath
    else BuddyPath
  }

  /** `sfree` (HW4/malloc_3.cpp:491-494) on a block in use, by its recorded payload. */
  function SfreePath(blockSize: nat): (p: Path)
    ensures p != Refused
    ensures !BadSize(blockSize) ==> p == SmallocPath(blockSize)
  {
    if blockSize >= MaxBlockSize then MmapPath else BuddyPath
  }

  /** `srealloc` (HW4/malloc_3.cpp:523) as written: strictly above 128 KiB is an `mmap` block. */
  function SreallocPathAsWritten(blockSize: nat): Path {
    if blockSize > MaxBlockSize then MmapPath else BuddyPath
  }

  /** `srealloc` with the threshold `smalloc` and `sfree` use. */
  function SreallocPath(blockSize: nat): Path {
    if blockSize >= MaxBlockSize then MmapPath else BuddyPath
  }

  /** With the same threshold everywhere, a block is freed and resized on the path that
      allocated it: an `mmap` block records its requested size, a buddy block the payload of
      its order. */
  lemma RoutingAgrees(size: nat, k: nat)
    requires k <= MaxOrder
    ensures SmallocPath(size) == MmapPath ==> SfreePath(size) == MmapPath && SreallocPath(size) == MmapPath
    ensures SfreePath(Capacity(k)) == BuddyPath && SreallocPath(Capacity(k)) == BuddyPath
  {
    CapacityMonotone(k, MaxOrder);
    Pow2Values();
  }

  /** A block of exactly 128 KiB comes from `mmap` and is freed there, but `srealloc` as
      written treats it as a buddy block. */
  lemma SreallocPathBoundary()
    ensures SmallocPath(MaxBlockSize) == MmapPath && SfreePath(MaxBlockSize) == MmapPath
    ensures SreallocPathAsWritten(MaxBlockSize) == BuddyPath
    ensures SreallocPath(MaxBlockSize) == MmapPath
  {
  }

  // ---------------------------------------------------------------- srealloc

  /** What `srealloc` decides to do. `MoveTo` is: allocate anew, copy, free the old block;
      its failure (a null from `smalloc`) leaves the old block in place. */
  datatype ReallocPlan =
    | Fail
    | AllocNew
    | KeepBlock
    | ShrinkInPlace(payload: nat)
    | GrowInPlace(addr: nat, payload: nat)
    | MoveTo

  /** A block in use: its header address and recorded payload. */
  datatype Block = Block(addr: nat, size: nat)

  /** `srealloc` (HW4/malloc_3.cpp:513-560) as written: the `mmap` test uses `>`, and a merge
      is kept only when it reaches exactly the requested size. */
  function SreallocAsWritten(size: nat, oldBlock: Option<Block>, free: map<nat, nat>): (p: ReallocPlan)
    ensures p == Fail <==> BadSize(size)
    ensures p == AllocNew <==> !BadSize(size) && oldBlock == None
    ensures oldBlock.Some? && oldBlock.value.size > MaxBlockSize ==> p == Fail || p == KeepBlock || p == MoveTo
    ensures p.GrowInPlace? ==> oldBlock.Some? && oldBlock.value.size < size == p.payload
  {
    if BadSize(size) then Fail
    else if oldBlock == None then AllocNew
    else
      var b := oldBlock.value;
      if SreallocPathAsWritten(b.size) == MmapPath then
        if size == b.size then KeepBlock else MoveTo
      else if size <= b.size then ShrinkInPlace(SplitLoop(b.size, size).0)
      else
        var (a, s, _) := TryToMerge(free, b.addr, b.size, size);
        if s == size then GrowInPlace(a, s) else MoveTo
  }

  /** `srealloc` with the `mmap` test `>=` and a merge kept whenever it is large enough. */
  function Srealloc(size: nat, oldBlock: Option<Block>, free: map<nat, nat>): (p: ReallocPlan)
    ensures p == Fail <==> BadSize(size)
    ensures p == AllocNew <==> !BadSize(size) && oldBlock == None
    ensures oldBlock.Some? && oldBlock.value.size >= MaxBlockSize ==> p == Fail || p == KeepBlock || p == MoveTo
    ensures p.ShrinkInPlace? ==> oldBlock.Some? && size <= p.payload <= oldBlock.value.size < MaxBlockSize
    ensures p.GrowInPlace? ==> oldBlock.Some? && oldBlock.value.size < size <= p.payload
    ensures !BadSize(size) && oldBlock.Some? && oldBlock.value.size < MaxBlockSize ==>
              (p.ShrinkInPlace? <==> size <= oldBlock.value.size)
    ensures !BadSize(size) && oldBlock.Some? && oldBlock.value.size < size ==>
              (p.GrowInPlace? <==> TryToMerge(free, oldBlock.value.addr, oldBlock.value.size, size).1 >= size)
  {
    if BadSize(size) then Fail
    else if oldBlock == None then AllocNew
    else
      var b := oldBlock.value;
      if SreallocPath(b.size) == MmapPath then
        if size == b.size then KeepBlock else MoveTo
      else if size <= b.size then ShrinkInPlace(SplitLoop(b.size, size).0)
      else
        var (a, s, _) := TryToMerge(free, b.addr, b.size, size);
        if s >= size then GrowInPlace(a, s) else MoveTo
  }

  /** Where the code and the corrected `srealloc` part ways: a block of exactly 128 KiB that
      is not grown, and a buddy block whose merge overshoots the request. */
  lemma SreallocDifference(size: nat, oldBlock: Option<Block>, free: map<nat, nat>)
    ensures SreallocAsWritten(size, oldBlock, free) != Srealloc(size, oldBlock, free) <==>
              && !BadSize(size) && oldBlock.Some?
              && (|| (oldBlock.value.size == MaxBlockSize && size <= MaxBlockSize)
                  || (oldBlock.value.size < MaxBlockSize && oldBlock.value.size < size
                      && TryToMerge(free, oldBlock.value.addr, oldBlock.value.size, size).1 > size))
  {
  }

  /** A buddy block of 96 bytes whose buddy is free: growing it to 200 bytes merges into a
      224-byte block, which the code throws away because 224 != 200. */
  lemma SreallocAbandonsMerge()
    ensures SreallocAsWritten(200, Some(Block(0, 96)), map[128 := 96]) == MoveTo
    ensures Srealloc(200, Some(Block(0, 96)), map[128 := 96]) == GrowInPlace(0, 224)
  {
    Pow2Values();
    XorPow2(0, 7);
    assert Bit(0, 7) == 0;
    assert FindBuddy(0, 96) == 128;
  }

  /** A 128 KiB `mmap` block shrunk to 100 bytes is split as if it were a buddy block. */
  lemma SreallocSplitsMmapBlock()
    ensures SreallocAsWritten(100, Some(Block(0, MaxBlockSize)), map[]).ShrinkInPlace?
    ensures SreallocAsWritten(100, Some(Block(0, MaxBlockSize)), map[]).payload < MaxBlockSize
    ensures Srealloc(100, Some(Block(0, MaxBlockSize)), map[]) == MoveTo
  {
  }
}

=== FILE: clearance.dfy ===
/** The clearance system calls of the kernel patch (HW2/kernel/hw2.c).

    A task carries a `clearance_mode` word with three flag bits: sword, midnight and
    clamp. `sys_set_sec` lets an administrator reset that word from three integer
    arguments; the remaining calls are stubs. The capability check and the current task
    become parameters: `capable` is the answer `capable(CAP_SYS_ADMIN)` would give, and
    the task's word is passed in and returned. */
module Clearance {

  /** Error numbers from the kernel's errno table; system calls return them negated. */
  const EPERM: int := 1
  const EINVAL: int := 22

  /** The three flag bits of `clearance_mode`. */
  const SwordClearance: bv32 := 0x1
  const MidnightClearance: bv32 := 0x2
  const ClampClearance: bv32 := 0x4

  /** What a call returns to user space and the task's clearance word afterwards. */
  datatype Outcome = Outcome(ret: int, mode: bv32)

  /** Reference encoding of three flags as a number, written arithmetically so that it
      does not share the bitwise `|` of the system call. */
  function Mask(sword: bool, midnight: bool, clamp: bool): (m: bv32)
    ensures m <= 7
  {
    ((if sword then 1 else 0) + (if midnight then 2 else 0) + (if clamp then 4 else 0)) as bv32
  }

  /** The three flags a clearance word grants. */
  datatype Grants = Grants(sword: bool, midnight: bool, clamp: bool)

  function Decode(mode: bv32): (g: Grants) {
    Grants(mode & SwordClearance != 0, mode & MidnightClearance != 0, mode & ClampClearance != 0)
  }

  /** Decoding an encoded set of flags gives the flags back. */
  lemma DecodeMask(sword: bool, midnight: bool, clamp: bool)
    ensures Decode(Mask(sword, midnight, clamp)) == Grants(sword, midnight, clamp)
  {
    if sword {
      if midnight {
        if clamp { assert Mask(sword, midnight, clamp) == 7; } else { assert Mask(sword, midnight, clamp) == 3; }
      } else {
        if clamp { assert Mask(sword, midnight, clamp) == 5; } else { assert Mask(sword, midnight, clamp) == 1; }
      }
    } else {
      if midnight {
        if clamp { assert Mask(sword, midnight, clamp) == 6; } else { assert Mask(sword, midnight, clamp) == 2; }
      } else {
        if clamp { assert Mask(sword, midnight, clamp) == 4; } else { assert Mask(sword, midnight, clamp) == 0; }
      }
    }
  }

  /** `sys_set_sec(sword, midnight, clamp)`: a caller without CAP_SYS_ADMIN is refused
      before the arguments are looked at; a negative argument is refused without touching
      the word; otherwise the word is cleared and each flag set whose argument is at
      least 1. */
  function SetSec(capable: bool, sword: int, midnight: int, clamp: int, mode: bv32): (r: Outcome)
    ensures !capable ==> r == Outcome(-EPERM, mode)
    ensures capable && (sword < 0 || midnight < 0 || clamp < 0) ==> r == Outcome(-EINVAL, mode)
    ensures r.ret == 0 <==> capable && sword >= 0 && midnight >= 0 && clamp >= 0
    ensures r.ret == 0 ==> r.mode == Mask(sword >= 1, midnight >= 1, clamp >= 1)
    ensures r.ret == 0 ==> r.mode <= 7 && Decode(r.mode) == Grants(sword >= 1, midnight >= 1, clamp >= 1)
  {
    if !capable then Outcome(-EPERM, mode)
    else if sword < 0 || midnight < 0 || clamp < 0 then Outcome(-EINVAL, mode)
    else
      var m0: bv32 := 0;
      var m1 := if sword >= 1 then m0 | SwordClearance else m0;
      var m2 := if midnight >= 1 then m1 | MidnightClearance else m1;
      var m3 := if clamp >= 1 then m2 | ClampClearance else m2;
      DecodeMask(sword >= 1, midnight >= 1, clamp >= 1);
      Outcome(0, m3)
  }

  /** A successful call overwrites the word: the previous clearance leaves no trace. */
  lemma SetSecForgetsMode(sword: int, midnight: int, clamp: int, m1: bv32, m2: bv32)
    ensures SetSec(true, sword, midnight, clamp, m1).ret == 0 ==>
              SetSec(true, sword, midnight, clamp, m1) == SetSec(true, sword, midnight, clamp, m2)
  {
  }

  /** Every clearance word is reachable: passing each flag as 0 or 1 sets exactly the
      flags asked for, and only the three flag bits can ever be set. */
  lemma SetSecReachesEveryMask(g: Grants, mode: bv32)
    ensures var r := SetSec(true, if g.sword then 1 else 0, if g.midnight then 1 else 0,
                            if g.clamp then 1 else 0, mode);
            r.ret == 0 && Decode(r.mode) == g
  {
    DecodeMask(g.sword, g.midnight, g.clamp);
  }

  /** The permission check comes first: an unprivileged caller gets -EPERM even when the
      arguments are also invalid. */
  lemma PermissionBeforeValidation(sword: int, midnight: int, clamp: int, mode: bv32)
    requires sword < 0 || midnight < 0 || clamp < 0
    ensures SetSec(false, sword, midnight, clamp, mode).ret == -EPERM
    ensures SetSec(true, sword, midnight, clamp, mode).ret == -EINVAL
  {
  }

  /** `sys_hello`: always succeeds (its kernel log line is not modelled). */
  function Hello(): (r: int)
    ensures r == 0
  {
    0
  }

  /** `sys_get_sec(clr)`: a stub that reports success for every clearance name. */
  function GetSec(clr: char): (r: int)
    ensures r == 0
  {
    0
  }

  /** `sys_check_sec(pid, clr)`: a stub that reports success for every task and name. */
  function CheckSec(pid: int, clr: char): (r: int)
    ensures r == 0
  {
    0
  }

  /** `sys_set_sec_branch(height, clr)`: a stub that reports success for every input. */
  function SetSecBranch(height: int, clr: char): (r: int)
    ensures r == 0
  {
    0
  }
}

=== FILE: first_fit.dfy ===
/** The first-fit allocator of HW4/malloc_2.cpp. The heap is the list of blocks in
    address order, each with its payload size and a free flag; blocks are never split,
    merged or returned. A user pointer is the position of its block in the list, and a
    null pointer is `None`. Whether `sbrk` can still grow the heap is an input. */
module FirstFit {
  import opened Wrappers

  /** `smalloc` refuses requests above 10^8 bytes. */
  const TooMuchSize: nat := 100_000_000

  /** `sizeof(MetaData)`: a size, a flag and two pointers on a 64-bit target. */
  const MetaDataSize: nat := 32

  datatype Block = Block(size: nat, isFree: bool)

  /** The block list and the four counters the allocator keeps beside it. */
  datatype Heap = Heap(
    blocks: seq<Block>,
    numFreeBlocks: int,
    numFreeBytes: int,
    numAllocatedBlocks: int,
    numAllocatedBytes: int)

  /** What a counter counts, per block. */
  datatype Measure = FreeBlocks | FreeBytes | AllBytes

  function Weight(b: Block, m: Measure): nat {
    match m
    case FreeBlocks => if b.isFree then 1 else 0
    case FreeBytes => if b.isFree then b.size else 0
    case AllBytes => b.size
  }

  /** The total of a measure over a run of blocks. */
  function Sum(bs: seq<Block>, m: Measure): nat {
    if |bs| == 0 then 0 else Sum(bs[..|bs| - 1], m) + Weight(bs[|bs| - 1], m)
  }

  /** The counters say what the block list implies. */
  predicate Inv(h: Heap) {
    && h.numFreeBlocks == Sum(h.blocks, FreeBlocks)
    && h.numFreeBytes == Sum(h.blocks, FreeBytes)
    && h.numAllocatedBlocks == |h.blocks|
    && h.numAllocatedBytes == Sum(h.blocks, AllBytes)
  }

  function EmptyHeap(): Heap {
    Heap([], 0, 0, 0, 0)
  }

  lemma EmptyHeapInv()
    ensures Inv(EmptyHeap())
  {
  }

  lemma {:induction false} SumAppend(bs: seq<Block>, b: Block, m: Measure)
    ensures Sum(bs + [b], m) == Sum(bs, m) + Weight(b, m)
  {
    assert (bs + [b])[..|bs|] == bs;
  }

  lemma {:induction false} SumUpdate(bs: seq<Block>, k: nat, b: Block, m: Measure)
    requires k < |bs|
    ensures Sum(bs[k := b], m) == Sum(bs, m) - Weight(bs[k], m) + Weight(b, m)
  {
    var n := |bs|;
    if k == n - 1 {
      assert bs[k := b][..n - 1] == bs[..n - 1];
    } else {
      assert bs[k := b][..n - 1] == bs[..n - 1][k := b];
      SumUpdate(bs[..n - 1], k, b, m);
    }
  }

  /** Free blocks are among all blocks, and free bytes among all bytes. */
  lemma {:induction false} FreeWithinAll(bs: seq<Block>)
    ensures Sum(bs, FreeBlocks) <= |bs|
    ensures Sum(bs, FreeBytes) <= Sum(bs, AllBytes)
  {
    if |bs| > 0 {
      FreeWithinAll(bs[..|bs| - 1]);
    }
  }

  /** The position of the first free block of at least `size` bytes, or -1. */
  function FirstFit(bs: seq<Block>, size: nat): (k: int)
    ensures -1 <= k < |bs|
    ensures k >= 0 ==> bs[k].isFree && size <= bs[k].size
    ensures forall j :: 0 <= j < |bs| && (k == -1 || j < k) ==> !(bs[j].isFree && size <= bs[j].size)
  {
    if |bs| == 0 then -1
    else if bs[0].isFree && size <= bs[0].size then 0
    else
      var k := FirstFit(bs[1..], size);
      assert forall j :: 1 <= j < |bs| ==> bs[j] == bs[1..][j - 1];
      if k == -1 then -1 else k + 1
  }

  /** `BlockList::allocateBlock` (HW4/malloc_2.cpp:61-97): reuse the first free block that
      is large enough, else append a block of exactly `size` bytes when `sbrk` succeeds,
      else fail with nothing changed. Reuse moves only the free counters; a new block
      moves only the allocated ones. */
  function AllocateBlock(h: Heap, size: nat, sbrkOk: bool): (r: (Heap, Option<nat>))
    ensures Inv(h) ==> Inv(r.0)
    ensures r.1 == None <==> FirstFit(h.blocks, size) == -1 && !sbrkOk
    ensures r.1 == None ==> r.0 == h
    ensures |h.blocks| <= |r.0.blocks|
    ensures r.1.Some? ==>
              var k := r.1.value;
              && k < |r.0.blocks| && !r.0.blocks[k].isFree && size <= r.0.blocks[k].size
              && (forall j :: 0 <= j < k && j < |h.blocks| ==> !(h.blocks[j].isFree && size <= h.blocks[j].size))
              && (forall j :: 0 <= j < |h.blocks| && j != k ==> r.0.blocks[j] == h.blocks[j])
    ensures r.1.Some? && r.1.value < |h.blocks| ==>
              && r.0.blocks == h.blocks[r.1.value := Block(h.blocks[r.1.value].size, false)]
              && h.blocks[r.1.value].isFree
              && r.0.numAllocatedBlocks == h.numAllocatedBlocks
              && r.0.numAllocatedBytes == h.numAllocatedBytes
              && r.0.numFreeBlocks == h.numFreeBlocks - 1
              && r.0.numFreeBytes == h.numFreeBytes - h.blocks[r.1.value].size
    ensures r.1.Some? && r.1.value == |h.blocks| ==>
              && r.0.blocks == h.blocks + [Block(size, false)]
              && r.0.numAllocatedBlocks == h.numAllocatedBlocks + 1
              && r.0.numAllocatedBytes == h.numAllocatedBytes + size
              && r.0.numFreeBlocks == h.numFreeBlocks
              && r.0.numFreeBytes == h.numFreeBytes
  {
    var k := FirstFit(h.blocks, size);
    if k >= 0 then
      var b := h.blocks[k];
      var used := Block(b.size, false);
      SumUpdate(h.blocks, k, used, FreeBlocks);
      SumUpdate(h.blocks, k, used, FreeBytes);
      SumUpdate(h.blocks, k, used, AllBytes);
      (h.(blocks := h.blocks[k := used],
          numFreeBlocks := h.numFreeBlocks - 1,
          numFreeBytes := h.numFreeBytes - b.size), Some(k as nat))
    else if !sbrkOk then (h, None)
    else
      var grown := Block(size, false);
      SumAppend(h.blocks, grown, FreeBlocks);
      SumAppend(h.blocks, grown, FreeBytes);
      SumAppend(h.blocks, grown, AllBytes);
      (h.(blocks := h.blocks + [grown],
          numAllocatedBlocks := h.numAllocatedBlocks + 1,
          numAllocatedBytes := h.numAllocatedBytes + size), Some(|h.blocks|))
  }

  /** `BlockList::freeBlock` (HW4/malloc_2.cpp:49-59): a block already free is left alone;
      otherwise it is marked free and the free counters grow by one block and its size. */
  function FreeBlock(h: Heap, k: nat): (r: Heap)
    requires k < |h.blocks|
    ensures Inv(h) ==> Inv(r)
    ensures h.blocks[k].isFree ==> r == h
    ensures !h.blocks[k].isFree ==>
              && r.blocks == h.blocks[k := Block(h.blocks[k].size, true)]
              && r.numFreeBlocks == h.numFreeBlocks + 1
              && r.numFreeBytes == h.numFreeBytes + h.blocks[k].size
              && r.numAllocatedBlocks == h.numAllocatedBlocks
              && r.numAllocatedBytes == h.numAllocatedBytes
  {
    var b := h.blocks[k];
    if b.isFree then h
    else
      var freed := Block(b.size, true);
      SumUpdate(h.blocks, k, freed, FreeBlocks);
      SumUpdate(h.blocks, k, freed, FreeBytes);
      SumUpdate(h.blocks, k, freed, AllBytes);
      h.(blocks := h.blocks[k := freed],
         numFreeBlocks := h.numFreeBlocks + 1,
         numFreeBytes := h.numFreeBytes + b.size)
  }

  /** A request `smalloc` refuses outright. */
  predicate BadSize(size: nat) {
    size == 0 || size > TooMuchSize
  }

  /** `smalloc` (HW4/malloc_2.cpp:134-143). */
  function Smalloc(h: Heap, size: nat, sbrkOk: bool): (r: (Heap, Option<nat>))
    ensures BadSize(size) ==> r == (h, None)
    ensures !BadSize(size) ==> r == AllocateBlock(h, size, sbrkOk)
    ensures Inv(h) ==> Inv(r.0)
    ensures r.1.Some? ==> r.1.value < |r.0.blocks| && !r.0.blocks[r.1.value].isFree && size <= r.0.blocks[r.1.value].size
  {
    if BadSize(size) then (h, None) else AllocateBlock(h, size, sbrkOk)
  }

  /** `scalloc` (HW4/malloc_2.cpp:155-166): both factors must be in 1..10^8, and their
      product is then subject to `smalloc`'s bound. Zeroing the bytes is not modelled. */
  function Scalloc(h: Heap, num: nat, size: nat, sbrkOk: bool): (r: (Heap, Option<nat>))
    ensures BadSize(num) || BadSize(size) || num * size > TooMuchSize ==> r == (h, None)
    ensures !BadSize(num) && !BadSize(size) ==> r == Smalloc(h, num * size, sbrkOk)
    ensures Inv(h) ==> Inv(r.0)
    ensures r.1.Some? ==> r.1.value < |r.0.blocks| && num * size <= r.0.blocks[r.1.value].size
  {
    if BadSize(num) || BadSize(size) then (h, None)
    else Smalloc(h, num * size, sbrkOk)
  }

  /** `sfree` (HW4/malloc_2.cpp:173-177): a null pointer is ignored. The pointer must be one
      the allocator handed out. */
  function Sfree(h: Heap, p: Option<nat>): (r: Heap)
    requires p.Some? ==> p.value < |h.blocks|
    ensures Inv(h) ==> Inv(r)
    ensures p == None ==> r == h
    ensures p.Some? ==> r.blocks == h.blocks[p.value := Block(h.blocks[p.value].size, true)]
  {
    if p == None then h else FreeBlock(h, p.value)
  }

  /** `srealloc` (HW4/malloc_2.cpp:192-208): a bad size fails; a null pointer is a fresh
      `smalloc`; a block already big enough is returned as is; otherwise a new block is
      obtained and the old one freed, and when that fails the old block stays allocated
      and the heap is unchanged. Copying the bytes is not modelled. */
  function Srealloc(h: Heap, oldp: Option<nat>, size: nat, sbrkOk: bool): (r: (Heap, Option<nat>))
    requires oldp.Some? ==> oldp.value < |h.blocks|
    ensures Inv(h) ==> Inv(r.0)
    ensures BadSize(size) ==> r == (h, None)
    ensures !BadSize(size) && oldp == None ==> r == Smalloc(h, size, sbrkOk)
    ensures !BadSize(size) && oldp.Some? && size <= h.blocks[oldp.value].size ==> r == (h, oldp)
    ensures oldp.Some? && r.1 == None ==> r.0 == h
    ensures |h.blocks| <= |r.0.blocks|
    ensures r.1.Some? ==> r.1.value < |r.0.blocks|
    ensures !BadSize(size) && oldp.Some? && h.blocks[oldp.value].size < size ==>
              r.1 == Smalloc(h, size, sbrkOk).1
    ensures !BadSize(size) && oldp.Some? && h.blocks[oldp.value].size < size && r.1.Some? ==>
              && r.1.value != oldp.value
              && r.0.blocks[oldp.value] == Block(h.blocks[oldp.value].size, true)
              && !r.0.blocks[r.1.value].isFree && size <= r.0.blocks[r.1.value].size
  {
    if BadSize(size) then (h, None)
    else if oldp == None then Smalloc(h, size, sbrkOk)
    else
      var k := oldp.value;
      if size <= h.blocks[k].size then (h, oldp)
      else
        var (h1, newp) := Smalloc(h, size, sbrkOk);
        if newp == None then (h, None)
        else (Sfree(h1, oldp), newp)
  }

  /** The statistics functions (HW4/malloc_2.cpp:221-262). */
  function NumFreeBlocks(h: Heap): int { h.numFreeBlocks }
  function NumFreeBytes(h: Heap): int { h.numFreeBytes }
  function NumAllocatedBlocks(h: Heap): int { h.numAllocatedBlocks }
  function NumAllocatedBytes(h: Heap): int { h.numAllocatedBytes }
  function NumMetaDataBytes(h: Heap): int { h.numAllocatedBlocks * MetaDataSize }
  function SizeMetaData(): nat { MetaDataSize }

  /** Under the invariant the statistics agree with the block list: one header per block,
      and nothing counted free that is not also counted allocated. */
  lemma StatisticsFacts(h: Heap)
    requires Inv(h)
    ensures NumMetaDataBytes(h) == |h.blocks| * SizeMetaData()
    ensures 0 <= NumFreeBlocks(h) <= NumAllocatedBlocks(h)
    ensures 0 <= NumFreeBytes(h) <= NumAllocatedBytes(h)
  {
    FreeWithinAll(h.blocks);
  }

  /** Freeing a block and asking again for its size never grows the heap: first fit finds
      that block or an earlier one. */
  lemma FreeThenMallocReuses(h: Heap, k: nat, sbrkOk: bool)
    requires Inv(h) && k < |h.blocks| && !BadSize(h.blocks[k].size)
    ensures var h1 := Sfree(h, Some(k));
            var r := Smalloc(h1, h.blocks[k].size, sbrkOk);
            && r.1.Some? && r.1.value <= k
            && |r.0.blocks| == |h.blocks|
            && r.0.numAllocatedBytes == h.numAllocatedBytes
  {
    var h1 := Sfree(h, Some(k));
    assert h1.blocks[k].isFree && h.blocks[k].size <= h1.blocks[k].size;
    assert FirstFit(h1.blocks, h.blocks[k].size) != -1;
  }
}

=== FILE: request_queue.dfy ===
/** The bounded FIFO of pending requests used by the web server (HW3/queue.c).
    The C code keeps a singly linked list with head and tail pointers and a
    counter; here the list's contents from head to tail are a sequence and the
    counter is its length. Descriptors and timestamps are plain integers. */
module RequestQueue {

  /** One pending connection: its descriptor and its arrival time. */
  datatype Request = Request(fd: int, arrival: int)

  /** The queue: the requests from head to tail, and the capacity fixed at creation. */
  datatype Queue = Queue(items: seq<Request>, maxSize: int)

  /** The result of a removal: the descriptor handed back (or `NotFound`) and the queue left behind. */
  datatype Popped = Popped(fd: int, rest: Queue)

  /** The sentinel every removal returns when there is nothing to remove. */
  const NotFound: int := -1

  /** What the counter may hold: never more than the capacity. */
  predicate Valid(q: Queue) {
    |q.items| <= q.maxSize
  }

  /** The descriptors of a run of requests, in order. */
  function Fds(s: seq<Request>): (r: seq<int>)
    ensures |r| == |s|
  {
    seq(|s|, i requires 0 <= i < |s| => s[i].fd)
  }

  /** Some request in the run carries this descriptor. */
  predicate HasFd(s: seq<Request>, fd: int) {
    exists i :: 0 <= i < |s| && s[i].fd == fd
  }

  /** An empty queue of the given capacity. A capacity of 0 makes it full and empty at once. */
  function Create(size: int): (q: Queue)
    ensures IsEmpty(q) && q.maxSize == size
    ensures size >= 0 ==> Valid(q)
    ensures IsFull(q) <==> size == 0
  {
    Queue([], size)
  }

  /** The counter: the number of requests between head and tail. */
  function Size(q: Queue): (n: nat)
    ensures n == 0 <==> IsEmpty(q)
    ensures IsFull(q) ==> n == q.maxSize
    ensures Valid(q) ==> n <= q.maxSize
  {
    |q.items|
  }

  /** Full means the counter has reached the capacity exactly (the C code compares with ==). */
  predicate IsFull(q: Queue) {
    |q.items| == q.maxSize
  }

  predicate IsEmpty(q: Queue) {
    |q.items| == 0
  }

  /** Appends at the tail; on a full queue nothing happens. */
  function Enqueue(q: Queue, fd: int, arrival: int): (r: Queue)
    ensures r.maxSize == q.maxSize
    ensures IsFull(q) ==> r == q
    ensures !IsFull(q) ==> r.items == q.items + [Request(fd, arrival)]
    ensures Valid(q) ==> Valid(r)
  {
    if IsFull(q) then q else q.(items := q.items + [Request(fd, arrival)])
  }

  /** Removes the head and returns its descriptor; `NotFound` and no change when empty. */
  function Dequeue(q: Queue): (r: Popped)
    ensures r.rest.maxSize == q.maxSize
    ensures IsEmpty(q) ==> r.fd == NotFound && r.rest == q
    ensures !IsEmpty(q) ==> q.items == [Request(r.fd, HeadArrivalTime(q))] + r.rest.items
    ensures Valid(q) ==> Valid(r.rest)
  {
    if IsEmpty(q) then Popped(NotFound, q)
    else Popped(q.items[0].fd, q.(items := q.items[1..]))
  }

  /** The arrival time of the head, or 0 for an empty queue. */
  function HeadArrivalTime(q: Queue): (t: int)
    ensures IsEmpty(q) ==> t == 0
  {
    if IsEmpty(q) then 0 else q.items[0].arrival
  }

  /** The descriptor of the head, or `NotFound` for an empty queue: what a dequeue would
      hand back, without removing it. */
  function HeadDescriptor(q: Queue): (fd: int)
    ensures fd == Dequeue(q).fd
  {
    if IsEmpty(q) then NotFound else q.items[0].fd
  }

  /** The counter moves with the contents: an enqueue that is not refused adds one and
      leaves the queue non-empty, a dequeue from a non-empty queue removes one and leaves
      room, and the operations on a full or empty queue leave the count alone. */
  lemma CounterTracksContents(q: Queue, fd: int, arrival: int)
    requires Valid(q)
    ensures !IsFull(q) ==> Size(Enqueue(q, fd, arrival)) == Size(q) + 1 && !IsEmpty(Enqueue(q, fd, arrival))
    ensures IsFull(q) ==> Size(Enqueue(q, fd, arrival)) == Size(q)
    ensures !IsEmpty(q) ==> Size(Dequeue(q).rest) == Size(q) - 1 && !IsFull(Dequeue(q).rest)
    ensures IsEmpty(q) ==> Size(Dequeue(q).rest) == 0
  {
  }

  /** The head is the first request added: enqueueing onto an empty queue makes the new
      request the head, and enqueueing onto a non-empty one leaves the head alone. */
  lemma HeadIsFirstAdded(q: Queue, fd: int, arrival: int)
    ensures IsEmpty(q) && !IsFull(q) ==>
              HeadDescriptor(Enqueue(q, fd, arrival)) == fd && HeadArrivalTime(Enqueue(q, fd, arrival)) == arrival
    ensures !IsEmpty(q) ==>
              && HeadDescriptor(Enqueue(q, fd, arrival)) == HeadDescriptor(q)
              && HeadArrivalTime(Enqueue(q, fd, arrival)) == HeadArrivalTime(q)
    ensures !IsEmpty(q) ==> q.items[0] == Request(HeadDescriptor(q), HeadArrivalTime(q))
  {
  }

  /** The position of the first request carrying `fd` in `s`, or `NotFound`. */
  function IndexOf(s: seq<Request>, fd: int): (r: int)
    ensures NotFound <= r < |s|
    ensures r == NotFound <==> forall i :: 0 <= i < |s| ==> s[i].fd != fd
    ensures r != NotFound ==> s[r].fd == fd && forall j :: 0 <= j < r ==> s[j].fd != fd
  {
    if |s| == 0 then NotFound
    else if s[0].fd == fd then 0
    else
      var k := IndexOf(s[1..], fd);
      if k == NotFound then NotFound else k + 1
  }

  /** Walks from the head and returns the index of the first request with that descriptor, or `NotFound`. */
  function FindReq(q: Queue, fd: int): (r: int)
    ensures NotFound <= r < |q.items|
    ensures r == NotFound <==> !HasFd(q.items, fd)
    ensures r != NotFound ==> q.items[r].fd == fd && !HasFd(q.items[..r], fd)
  {
    if IsEmpty(q) then NotFound else IndexOf(q.items, fd)
  }

  /** Removes the request at position `index` (0 is the head); `NotFound` and no change
      when the queue is empty or the index lies outside [0, size). */
  function DequeueByIndex(q: Queue, index: int): (r: Popped)
    ensures r.rest.maxSize == q.maxSize
    ensures !(0 <= index < |q.items|) ==> r.fd == NotFound && r.rest == q
    ensures 0 <= index < |q.items| ==>
              r.fd == q.items[index].fd && r.rest.items == q.items[..index] + q.items[index + 1..]
    ensures Valid(q) ==> Valid(r.rest)
  {
    if IsEmpty(q) then Popped(NotFound, q)
    else if index < 0 || index >= Size(q) then Popped(NotFound, q)
    else if index == 0 then Dequeue(q)
    else Popped(q.items[index].fd, q.(items := q.items[..index] + q.items[index + 1..]))
  }

  /** Removes the first request carrying `fd`; no change when there is none. */
  function DequeueByReq(q: Queue, fd: int): (r: Queue)
    ensures r.maxSize == q.maxSize
    ensures !HasFd(q.items, fd) ==> r == q
    ensures HasFd(q.items, fd) ==>
              exists k :: 0 <= k < |q.items| && q.items[k].fd == fd && !HasFd(q.items[..k], fd)
                          && r.items == q.items[..k] + q.items[k + 1..]
    ensures Valid(q) ==> Valid(r)
  {
    var index := FindReq(q, fd);
    if index == NotFound then q else DequeueByIndex(q, index).rest
  }

  /** Removes and returns the most recent request (the tail), or `NotFound` when empty. */
  function SkipDequeue(q: Queue): (r: Popped)
    ensures r.rest.maxSize == q.maxSize
    ensures IsEmpty(q) ==> r.fd == NotFound && r.rest == q
    ensures !IsEmpty(q) ==> q.items == r.rest.items + [Request(r.fd, q.items[|q.items| - 1].arrival)]
  {
    if IsEmpty(q) then Popped(NotFound, q) else DequeueByIndex(q, Size(q) - 1)
  }

  /** Pop the tail, `NotFound` if empty: the contract the code's comment promises.
      The linked-list code itself does not keep it (see `DequeueTailAsWritten`). */
  function DequeueTail(q: Queue): (r: Popped)
    ensures r.rest.maxSize == q.maxSize
    ensures IsEmpty(q) ==> r.fd == NotFound && r.rest == q
    ensures !IsEmpty(q) ==> q.items == r.rest.items + [Request(r.fd, q.items[|q.items| - 1].arrival)]
    ensures Valid(q) ==> Valid(r.rest)
  {
    if IsEmpty(q) then Popped(NotFound, q)
    else Popped(q.items[|q.items| - 1].fd, q.(items := q.items[..|q.items| - 1]))
  }

  /** Number of `true` flips in a run of coin flips. */
  function Heads(coins: seq<bool>): nat {
    if |coins| == 0 then 0 else (if coins[0] then 1 else 0) + Heads(coins[1..])
  }

  /** What the random-drop loop achieves with a finite run of coin flips: either it has
      closed and removed enough requests, or it is still flipping when the run ends. */
  datatype Eviction = Evicted(rest: Queue, closed: seq<int>) | StillFlipping

  /** The body of the random-drop loop. Each `true` flip closes the current head's
      descriptor and removes the first request carrying it; a `false` flip spares. */
  function KillLoop(q: Queue, coins: seq<bool>, remaining: nat): (r: Eviction)
    requires remaining <= |q.items|
    ensures r.Evicted? <==> Heads(coins) >= remaining
    ensures r.Evicted? ==> r.rest == q.(items := q.items[remaining..])
    ensures r.Evicted? ==> r.closed == Fds(q.items[..remaining])
    decreases |coins|
  {
    if remaining == 0 then Evicted(q, [])
    else if |coins| == 0 then StillFlipping
    else if coins[0] then
      var fd := HeadDescriptor(q);
      var next := KillLoop(DequeueByReq(q, fd), coins[1..], remaining - 1);
      KillStep(q, remaining);
      match next
      case Evicted(rest, closed) => Evicted(rest, [fd] + closed)
      case StillFlipping => StillFlipping
    else KillLoop(q, coins[1..], remaining)
  }

  /** One kill: removing the first request that carries the head's descriptor removes the
      head, so killing `k` from the head is the head plus `k - 1` from the rest. */
  lemma KillStep(q: Queue, k: nat)
    requires 0 < k <= |q.items|
    ensures DequeueByReq(q, HeadDescriptor(q)) == q.(items := q.items[1..])
    ensures q.items[1..][k - 1..] == q.items[k..]
    ensures [HeadDescriptor(q)] + Fds(q.items[1..][..k - 1]) == Fds(q.items[..k])
  {
    DequeueHead(q);
    HeadSlices(q.items, k);
  }

  /** The head carries the head's descriptor, so removing by it removes the head. */
  lemma DequeueHead(q: Queue)
    requires 0 < |q.items|
    ensures DequeueByReq(q, HeadDescriptor(q)) == q.(items := q.items[1..])
  {
    assert FindReq(q, q.items[0].fd) == 0;
  }

  /** The first `k` requests are the head followed by the first `k - 1` of the rest. */
  lemma HeadSlices(s: seq<Request>, k: nat)
    requires 0 < k <= |s|
    ensures s[1..][k - 1..] == s[k..]
    ensures [s[0].fd] + Fds(s[1..][..k - 1]) == Fds(s[..k])
  {
    assert s[..k] == [s[0]] + s[1..][..k - 1];
    FdsAppend([s[0]], s[1..][..k - 1]);
  }

  /** The random-drop policy: closes ⌊size/2⌋ requests, always taken from the head.
      The coins decide only how long the loop runs, never which requests go. */
  function RandomDequeue(q: Queue, coins: seq<bool>): (r: Eviction)
    ensures r.Evicted? <==> Heads(coins) >= |q.items| / 2
    ensures r.Evicted? ==> r.rest.maxSize == q.maxSize
    ensures r.Evicted? ==> |r.closed| == |q.items| / 2
    ensures r.Evicted? ==> q.items == q.items[..|q.items| / 2] + r.rest.items
    ensures r.Evicted? ==> r.closed == Fds(q.items[..|q.items| / 2])
  {
    if IsEmpty(q) then Evicted(q, []) else KillLoop(q, coins, Size(q) / 2)
  }

  /** The random drop with the count rounded up, ⌈size/2⌉: what the server's random
      policy needs so that a saturated queue always gives up at least one slot. */
  function RandomDequeueHalfUp(q: Queue, coins: seq<bool>): (r: Eviction)
    ensures r.Evicted? <==> Heads(coins) >= (|q.items| + 1) / 2
    ensures r.Evicted? ==> r.rest.maxSize == q.maxSize
    ensures r.Evicted? ==> q.items == q.items[..(|q.items| + 1) / 2] + r.rest.items
    ensures r.Evicted? ==> r.closed == Fds(q.items[..(|q.items| + 1) / 2])
    ensures r.Evicted? && !IsEmpty(q) ==> 1 <= |r.closed| && |r.rest.items| < |q.items|
  {
    if IsEmpty(q) then Evicted(q, []) else KillLoop(q, coins, (Size(q) + 1) / 2)
  }

  /** On an even-sized queue rounding up changes nothing. */
  lemma HalfUpAgreesOnEvenSizes(q: Queue, coins: seq<bool>)
    requires |q.items| % 2 == 0
    ensures RandomDequeueHalfUp(q, coins) == RandomDequeue(q, coins)
  {
    assert (|q.items| + 1) / 2 == |q.items| / 2;
  }

  /** Only termination depends on the coins: any two runs that finish agree. */
  lemma RandomDequeueIgnoresCoins(q: Queue, c1: seq<bool>, c2: seq<bool>)
    requires RandomDequeue(q, c1).Evicted? && RandomDequeue(q, c2).Evicted?
    ensures RandomDequeue(q, c1) == RandomDequeue(q, c2)
  {
  }

  /** A queue holding a single request loses nothing to the random drop. */
  lemma RandomDequeueSingleton(q: Queue, coins: seq<bool>)
    requires |q.items| == 1
    ensures RandomDequeue(q, coins) == Evicted(q, [])
  {
  }

  /** Enqueues a run of requests one by one. */
  function EnqueueAll(q: Queue, rs: seq<Request>): Queue
    decreases |rs|
  {
    if |rs| == 0 then q else EnqueueAll(Enqueue(q, rs[0].fd, rs[0].arrival), rs[1..])
  }

  /** Dequeues until empty and lists the descriptors in the order they came out. */
  function DrainAll(q: Queue): seq<int>
    decreases |q.items|
  {
    if IsEmpty(q) then [] else var p := Dequeue(q); [p.fd] + DrainAll(p.rest)
  }

  lemma {:induction false} EnqueueAllAppends(q: Queue, rs: seq<Request>)
    requires |q.items| + |rs| <= q.maxSize
    ensures EnqueueAll(q, rs).items == q.items + rs
    decreases |rs|
  {
    if |rs| > 0 {
      var q' := Enqueue(q, rs[0].fd, rs[0].arrival);
      assert q'.items == q.items + [rs[0]];
      EnqueueAllAppends(q', rs[1..]);
      assert q.items + [rs[0]] + rs[1..] == q.items + rs;
    }
  }

  lemma {:induction false} DrainAllIsInOrder(q: Queue)
    ensures DrainAll(q) == Fds(q.items)
    decreases |q.items|
  {
    if !IsEmpty(q) {
      DrainAllIsInOrder(Dequeue(q).rest);
    }
  }

  /** FIFO: requests that fit come out of a fresh queue in the order they went in. */
  lemma FifoOrder(maxSize: int, rs: seq<Request>)
    requires |rs| <= maxSize
    ensures DrainAll(EnqueueAll(Create(maxSize), rs)) == Fds(rs)
  {
    EnqueueAllAppends(Create(maxSize), rs);
    DrainAllIsInOrder(EnqueueAll(Create(maxSize), rs));
  }

  /** Removing by index and putting the request back at the same place restores the queue,
      so every other request keeps its relative order. */
  lemma DequeueByIndexReinsert(q: Queue, index: int)
    requires 0 <= index < |q.items|
    ensures var r := DequeueByIndex(q, index);
            r.rest.items[..index] + [q.items[index]] + r.rest.items[index..] == q.items
  {
    var r := DequeueByIndex(q, index);
    assert r.rest.items[..index] == q.items[..index];
    assert r.rest.items[index..] == q.items[index + 1..];
    assert q.items[..index] + [q.items[index]] + q.items[index + 1..] == q.items;
  }

  /** Removing by descriptor takes out exactly one copy of that descriptor. */
  lemma DequeueByReqRemovesOne(q: Queue, fd: int)
    requires HasFd(q.items, fd)
    ensures multiset(Fds(DequeueByReq(q, fd).items)) == multiset(Fds(q.items)) - multiset{fd}
  {
    var k := FindReq(q, fd);
    var a, b := q.items[..k], q.items[k + 1..];
    assert q.items == a + [q.items[k]] + b;
    assert DequeueByReq(q, fd).items == a + b;
    FdsSplit(a, q.items[k], b);
  }

  lemma FdsSplit(a: seq<Request>, x: Request, b: seq<Request>)
    ensures multiset(Fds(a + [x] + b)) == multiset(Fds(a + b)) + multiset{x.fd}
  {
    FdsAppend(a, b);
    FdsAppend(a + [x], b);
    FdsAppend(a, [x]);
    MultisetSplit(Fds(a), x.fd, Fds(b));
  }

  lemma MultisetSplit(a: seq<int>, y: int, b: seq<int>)
    ensures multiset(a + [y] + b) == multiset(a + b) + multiset{y}
  {
    calc {
      multiset(a + [y] + b);
      multiset(a + [y]) + multiset(b);
      multiset(a) + multiset{y} + multiset(b);
      multiset(a + b) + multiset{y};
    }
  }

  lemma FdsAppend(a: seq<Request>, b: seq<Request>)
    ensures Fds(a + b) == Fds(a) + Fds(b)
  {
    assert forall i :: 0 <= i < |a + b| ==> Fds(a + b)[i] == (Fds(a) + Fds(b))[i];
  }

  /** The tail removal the server needs agrees with removing the last index. */
  lemma DequeueTailIsSkipDequeue(q: Queue)
    ensures DequeueTail(q) == SkipDequeue(q)
  {
  }

  // ---------------------------------------------------------------------------
  // The linked-list behaviour of dequeueTail as written.

  /** The pointer-level state of the C list: the chain reachable from `head`, whether
      `tail` still points at that chain's last node, and the counter. */
  datatype LinkedQueue = LinkedQueue(chain: seq<Request>, tailLinked: bool, size: int, maxSize: int)

  /** The state every other queue operation maintains. */
  predicate WellLinked(l: LinkedQueue) {
    l.tailLinked && |l.chain| == l.size
  }

  function Abstract(l: LinkedQueue): Queue {
    Queue(l.chain, l.maxSize)
  }

  /** The C enqueue on the pointer state: with a stale tail, the new node is hung off a
      freed node and is not reachable from the head, although the counter grows. */
  function EnqueueLinked(l: LinkedQueue, fd: int, arrival: int): (r: LinkedQueue)
    ensures WellLinked(l) ==> WellLinked(r) && Abstract(r) == Enqueue(Abstract(l), fd, arrival)
  {
    if l.size == l.maxSize then l
    else if l.size == 0 then LinkedQueue([Request(fd, arrival)], true, 1, l.maxSize)
    else if l.tailLinked then l.(chain := l.chain + [Request(fd, arrival)], size := l.size + 1)
    else l.(size := l.size + 1)
  }

  datatype TailPop = NullDereference | TailPopped(fd: int, after: LinkedQueue)

  /** dequeueTail as written. With one request, head == tail and head->next is NULL,
      so the search for the node before the tail walks off the list. With two or more,
      the node before the tail is found and cut off, but `q->tail` is never moved. */
  function DequeueTailAsWritten(l: LinkedQueue): (r: TailPop)
    requires WellLinked(l)
    ensures l.size == 1 <==> r.NullDereference?
    ensures l.size >= 2 ==> r.TailPopped? && !r.after.tailLinked
    ensures r.TailPopped? && l.size != 0 ==>
              r.fd == DequeueTail(Abstract(l)).fd && r.after.chain == DequeueTail(Abstract(l)).rest.items
  {
    if l.size == 0 then TailPopped(NotFound, l)
    else if |l.chain| == 1 then NullDereference
    else TailPopped(l.chain[|l.chain| - 1].fd, LinkedQueue(l.chain[..|l.chain| - 1], false, l.size - 1, l.maxSize))
  }

  /** After an as-written tail pop on a queue of two or more, the next enqueued request
      is counted but cannot be reached from the head: the chain is one short of the counter. */
  lemma DequeueTailLosesNextEnqueue(l: LinkedQueue, fd: int, arrival: int)
    requires WellLinked(l) && l.size >= 2 && l.size <= l.maxSize
    ensures var after := DequeueTailAsWritten(l).after;
            var next := EnqueueLinked(after, fd, arrival);
            next.size == l.size && |next.chain| == l.size - 1
  {
  }

  /** The concrete failure: queue [5, 7] of capacity 3; pop the tail, enqueue 9;
      walking from the head finds only 5 although the counter says 2. The intended
      queue holds [5, 9]. */
  lemma DequeueTailCounterexample()
    ensures var l := LinkedQueue([Request(5, 0), Request(7, 1)], true, 2, 3);
            var next := EnqueueLinked(DequeueTailAsWritten(l).after, 9, 2);
            var intended := Enqueue(DequeueTail(Abstract(l)).rest, 9, 2);
            Fds(next.chain) == [5] && next.size == 2 && Fds(intended.items) == [5, 9]
  {
    var l := LinkedQueue([Request(5, 0), Request(7, 1)], true, 2, 3);
    var intended := Enqueue(DequeueTail(Abstract(l)).rest, 9, 2);
    assert intended.items == [Request(5, 0), Request(9, 2)];
  }
}

=== FILE: server.dfy ===
/** The admission and dispatch logic of the multi-threaded web server
    (HW3_works/server.c). Every section the C code runs under its one mutex is
    one atomic step function over `State`; a `pthread_cond_wait` becomes a
    `MustWait` outcome that the caller retries once another step has run.
    Threads, sockets, the request handler and the clock are not modelled: the
    VIP flag, the handler's skip flag, timestamps and the random drop's coin
    flips are inputs. */
module Server {
  import opened RequestQueue

  /** The five overload policies, named on the command line as block, dh, dt, bf and random. */
  datatype Policy = Block | DropHead | DropTail | BlockFlush | Random

  const PolicyNames: seq<string> := ["block", "dh", "dt", "bf", "random"]

  function PolicyName(p: Policy): string {
    match p
    case Block => "block"
    case DropHead => "dh"
    case DropTail => "dt"
    case BlockFlush => "bf"
    case Random => "random"
  }

  /** The policy a valid name selects; naming it again gives back the same string. */
  function PolicyOf(name: string): (p: Policy)
    requires name in PolicyNames
    ensures PolicyName(p) == name
  {
    if name == "block" then Block
    else if name == "dh" then DropHead
    else if name == "dt" then DropTail
    else if name == "bf" then BlockFlush
    else Random
  }

  /** Compares the name with each known policy in turn. */
  method IsValidPolicy(policy: string) returns (valid: bool)
    ensures valid <==> policy in PolicyNames
  {
    var i := 0;
    while i < |PolicyNames|
      invariant 0 <= i <= |PolicyNames|
      invariant forall j :: 0 <= j < i ==> PolicyNames[j] != policy
    {
      if PolicyNames[i] == policy {
        return true;
      }
      i := i + 1;
    }
    return false;
  }

  datatype Config = Config(port: int, threads: int, queueSize: int, policy: Policy)

  /** Either a configuration the server runs with, or the process exit code. */
  datatype ArgsResult = Accepted(config: Config) | Exit(code: int)

  /** Validation of the command line `<port> <threads> <queue_size> <policy>`, taking the
      three numbers as already converted by atoi. */
  function GetArgs(argc: int, port: int, threads: int, queueSize: int, policyName: string): (r: ArgsResult)
    ensures r.Accepted? <==>
              argc >= 5 && port > 1024 && threads > 0 && queueSize > 0 && policyName in PolicyNames
    ensures r.Exit? ==> r.code == 1
    ensures r.Accepted? ==>
              r.config.port == port && r.config.threads == threads && r.config.queueSize == queueSize
              && PolicyName(r.config.policy) == policyName
  {
    if argc < 5 then Exit(1)
    else if port <= 1024 || threads <= 0 || queueSize <= 0 || policyName !in PolicyNames then Exit(1)
    else Accepted(Config(port, threads, queueSize, PolicyOf(policyName)))
  }

  /** The shared state the mutex protects: the VIP queue, the standard waiting queue, the
      queue of requests workers are handling, and whether the VIP thread is busy. */
  datatype State = State(
    vipWaiting: Queue,
    waiting: Queue,
    handling: Queue,
    handlingVip: bool,
    capacity: int,
    policy: Policy)

  /** The state initMaster sets up: both waiting queues sized by the queue size, the
      handling queue sized by the number of workers, the VIP thread idle. */
  function Init(c: Config): (r: State)
    ensures Total(r) == 0 && Held(r) == multiset{}
    ensures Inv(r) <==> c.queueSize > 0
    ensures r.capacity == c.queueSize && r.policy == c.policy && r.handling.maxSize == c.threads
  {
    State(Create(c.queueSize), Create(c.queueSize), Create(c.threads), false, c.queueSize, c.policy)
  }

  /** The load admission compares with the capacity: everything waiting or in service. */
  function Total(s: State): int {
    Size(s.vipWaiting) + Size(s.waiting) + Size(s.handling) + (if s.handlingVip then 1 else 0)
  }

  /** What every step keeps: the load never exceeds the capacity, which is positive, the
      two waiting queues have the capacity the server created them with, and every queued
      descriptor is a real (non-negative) one. */
  predicate Inv(s: State) {
    Shape(s) && Total(s) <= s.capacity
  }

  /** The invariant minus the bound on the load: what holds between dropping and admitting. */
  predicate Shape(s: State) {
    && s.capacity > 0
    && s.vipWaiting.maxSize == s.capacity
    && s.waiting.maxSize == s.capacity
    && RealDescriptors(s.vipWaiting) && RealDescriptors(s.waiting) && RealDescriptors(s.handling)
  }

  /** Every queued descriptor is a real one (accept never hands out a negative descriptor). */
  predicate RealDescriptors(q: Queue) {
    forall req :: req in q.items ==> req.fd >= 0
  }

  // ---------------------------------------------------------------------------
  // The accepting thread.

  /** A freshly accepted connection, already classified. */
  datatype Arrival = Arrival(fd: nat, time: int, isVip: bool)

  /** Which condition variable a step signals. */
  datatype Signal = SignalVip | SignalWorker | NoSignal

  /** Where the accepting thread stands: at the top of the admission block, asleep
      waiting for room, or asleep waiting for every queue to drain. */
  datatype Phase = Fresh | WaitSpace | WaitDrain

  datatype AcceptResult =
    | MustWait(phase: Phase)
    | Discarded(s: State, closed: seq<int>)
    | Routed(s: State, closed: seq<int>, signal: Signal)
    | Flipping

  /** The target queue of an arrival. */
  function TargetQueue(s: State, isVip: bool): Queue {
    if isVip then s.vipWaiting else s.waiting
  }

  /** Puts the arrival on the VIP or the standard queue and picks the signal: the VIP
      thread is woken when its queue has just become one long, a worker when no VIP
      work is queued or in service. */
  function Route(s: State, a: Arrival): (r: (State, Signal))
    ensures TargetQueue(r.0, a.isVip) == Enqueue(TargetQueue(s, a.isVip), a.fd, a.time)
    ensures TargetQueue(r.0, !a.isVip) == TargetQueue(s, !a.isVip)
    ensures r.0.handling == s.handling && r.0.handlingVip == s.handlingVip
    ensures r.0.capacity == s.capacity && r.0.policy == s.policy
    ensures r.1 == SignalVip <==> a.isVip && Size(r.0.vipWaiting) == 1
    ensures r.1 == SignalWorker <==> !a.isVip && IsEmpty(s.vipWaiting) && !s.handlingVip
  {
    if a.isVip then
      var vip := Enqueue(s.vipWaiting, a.fd, a.time);
      (s.(vipWaiting := vip), if Size(vip) == 1 then SignalVip else NoSignal)
    else
      var waiting := Enqueue(s.waiting, a.fd, a.time);
      (s.(waiting := waiting), if IsEmpty(s.vipWaiting) && !s.handlingVip then SignalWorker else NoSignal)
  }

  /** Routes the arrival and hands back the descriptors the step closed on the way. */
  function Admit(s: State, a: Arrival, closed: seq<int>): (r: AcceptResult)
    ensures r.Routed? && r.closed == closed && (r.s, r.signal) == Route(s, a)
  {
    var (s', signal) := Route(s, a);
    Routed(s', closed, signal)
  }

  /** The block-flush policy once in its wait: sleep until nothing is queued or in service,
      then discard a standard arrival and admit a VIP one. */
  function AfterDrain(s: State, a: Arrival): (r: AcceptResult)
    ensures r == MustWait(WaitDrain) <==> Total(s) != 0
    ensures Total(s) == 0 && !a.isVip ==> r == Discarded(s, [a.fd])
    ensures Total(s) == 0 && a.isVip ==> r.Routed? && r.closed == [] && (r.s, r.signal) == Route(s, a)
  {
    if Total(s) != 0 then MustWait(WaitDrain)
    else if !a.isVip then Discarded(s, [a.fd])
    else Admit(s, a, [])
  }

  /** The random policy: drop about half of the standard waiting queue from its head, then
      admit. The count is rounded up so that at least one slot is freed (see
      `RandomBranchAsWritten` for the code's rounding down). */
  function RandomBranch(s: State, a: Arrival, coins: seq<bool>): AcceptResult {
    match RandomDequeueHalfUp(s.waiting, coins)
    case StillFlipping => Flipping
    case Evicted(rest, closed) => Admit(s.(waiting := rest), a, closed)
  }

  /** The random policy exactly as the code runs it: ⌊size/2⌋ requests are dropped. */
  function RandomBranchAsWritten(s: State, a: Arrival, coins: seq<bool>): AcceptResult {
    match RandomDequeue(s.waiting, coins)
    case StillFlipping => Flipping
    case Evicted(rest, closed) => Admit(s.(waiting := rest), a, closed)
  }

  /** The descriptors a state holds: queued for the VIP thread or a worker, or being handled. */
  function Held(s: State): multiset<int> {
    multiset(Fds(s.vipWaiting.items)) + multiset(Fds(s.waiting.items)) + multiset(Fds(s.handling.items))
  }

  /** The load counts every descriptor the state holds, plus one while the VIP thread is busy. */
  lemma LoadCountsHeld(s: State)
    ensures Total(s) == |Held(s)| + (if s.handlingVip then 1 else 0)
  {
  }

  /** The load has reached the capacity at the top of the admission block and the standard
      queue has something to drop: the overload policies apply. */
  predicate Saturated(s: State, phase: Phase) {
    phase == Fresh && Total(s) >= s.capacity && !IsEmpty(s.waiting)
  }

  /** The overload policies, entered when the load has reached the capacity and the
      standard queue is not empty. */
  function Overload(s: State, a: Arrival, coins: seq<bool>): (r: AcceptResult)
    requires !IsEmpty(s.waiting)
    ensures r == MustWait(WaitSpace) <==> s.policy == Block
    ensures s.policy == DropTail && !a.isVip ==> r == Discarded(s, [a.fd])
    ensures s.policy == DropTail && a.isVip ==>
              && r.Routed? && (r.s, r.signal) == Route(s.(waiting := DequeueTail(s.waiting).rest), a)
              && (RealDescriptors(s.waiting) ==> r.closed == [s.waiting.items[|s.waiting.items| - 1].fd])
    ensures s.policy == DropHead ==>
              && r.Routed? && (r.s, r.signal) == Route(s.(waiting := Dequeue(s.waiting).rest), a)
              && (RealDescriptors(s.waiting) ==> r.closed == [s.waiting.items[0].fd])
    ensures s.policy == BlockFlush ==> r == MustWait(WaitDrain)
    ensures s.policy == Random ==> (r.Flipping? <==> Heads(coins) < (|s.waiting.items| + 1) / 2)
    ensures s.policy == Random && !r.Flipping? ==>
              var k := (|s.waiting.items| + 1) / 2;
              && r.Routed? && r.closed == Fds(s.waiting.items[..k])
              && (r.s, r.signal) == Route(s.(waiting := Queue(s.waiting.items[k..], s.waiting.maxSize)), a)
  {
    match s.policy
    case Block => MustWait(WaitSpace)
    case DropTail =>
      if !a.isVip then Discarded(s, [a.fd])
      else
        var p := DequeueTail(s.waiting);
        assert s.waiting.items[|s.waiting.items| - 1] in s.waiting.items;
        Admit(s.(waiting := p.rest), a, if p.fd != NotFound then [p.fd] else [])
    case DropHead =>
      var p := Dequeue(s.waiting);
      assert s.waiting.items[0] in s.waiting.items;
      Admit(s.(waiting := p.rest), a, if p.fd != NotFound then [p.fd] else [])
    case BlockFlush => AfterDrain(s, a)
    case Random => RandomBranch(s, a, coins)
  }

  /** One run of the accepting thread's critical section for one arrival. Under the
      invariant, an admitted arrival ends up last in its queue, every descriptor the step
      takes out of the queues is handed back to be closed, and the load stays within the
      capacity. */
  function AcceptStep(s: State, a: Arrival, phase: Phase, coins: seq<bool>): (r: AcceptResult)
    ensures Inv(s) && (r.Routed? || r.Discarded?) ==> Inv(r.s)
    ensures Inv(s) && r.Routed? ==> Held(r.s) + multiset(r.closed) == Held(s) + multiset{a.fd}
    ensures Inv(s) && r.Routed? ==> EndsWith(TargetQueue(r.s, a.isVip), Request(a.fd, a.time))
    ensures r.Discarded? ==> r.s == s && r.closed == [a.fd] && !a.isVip
    ensures r.Discarded? ==> phase == WaitDrain || s.policy == DropTail || s.policy == BlockFlush
    ensures r.MustWait? ==>
              (r.phase == WaitSpace && Total(s) >= s.capacity) || (r.phase == WaitDrain && Total(s) != 0)
    ensures s.policy == Block && phase != WaitDrain ==> !r.Discarded? && !r.Flipping? && (r.Routed? ==> r.closed == [])
    ensures r.Routed? && r.closed != [] ==> Saturated(s, phase)
    ensures Inv(s) && Saturated(s, phase) && s.policy == DropHead ==>
              r.Routed? && r.closed == [s.waiting.items[0].fd]
    ensures Inv(s) && Saturated(s, phase) && s.policy == DropTail && a.isVip ==>
              r.Routed? && r.closed == [s.waiting.items[|s.waiting.items| - 1].fd]
    ensures Saturated(s, phase) && s.policy == Random && r.Routed? ==>
              r.closed == Fds(s.waiting.items[..(|s.waiting.items| + 1) / 2])
    ensures phase != WaitDrain && Total(s) < s.capacity ==>
              r.Routed? && r.closed == [] && (r.s, r.signal) == Route(s, a)
    ensures phase == WaitSpace && Total(s) >= s.capacity ==> r == MustWait(WaitSpace)
    ensures phase == Fresh && Total(s) >= s.capacity && (IsEmpty(s.waiting) || s.policy == Block) ==>
              r == MustWait(WaitSpace)
    ensures Saturated(s, phase) && s.policy == DropTail && !a.isVip ==> r == Discarded(s, [a.fd])
    ensures Saturated(s, phase) && s.policy == BlockFlush ==> r == MustWait(WaitDrain)
    ensures r == MustWait(WaitDrain) ==> phase == WaitDrain || s.policy == BlockFlush
    ensures phase == WaitDrain ==> (r == MustWait(WaitDrain) <==> Total(s) != 0)
    ensures phase == WaitDrain && Total(s) == 0 ==>
              if a.isVip then r.Routed? && r.closed == [] && (r.s, r.signal) == Route(s, a)
              else r == Discarded(s, [a.fd])
  {
    match phase
    case WaitSpace =>
      if Total(s) >= s.capacity then MustWait(WaitSpace)
      else
        var r := Admit(s, a, []);
        AdmitFacts(s, a, []);
        r
    case WaitDrain =>
      var r := AfterDrain(s, a);
      AfterDrainFacts(s, a);
      r
    case Fresh =>
      if Total(s) < s.capacity then
        var r := Admit(s, a, []);
        AdmitFacts(s, a, []);
        r
      else if IsEmpty(s.waiting) || s.policy == Block then MustWait(WaitSpace)
      else
        var r := Overload(s, a, coins);
        OverloadFacts(s, a, coins);
        r
  }

  /** The queue is non-empty and ends with this request. */
  predicate EndsWith(q: Queue, req: Request) {
    |q.items| > 0 && q.items[|q.items| - 1] == req
  }

  /** Admitting below the capacity queues the arrival and raises the load by one. */
  lemma AdmitFacts(s: State, a: Arrival, closed: seq<int>)
    ensures Admit(s, a, closed).Routed? && Admit(s, a, closed).closed == closed
    ensures Shape(s) && Total(s) < s.capacity ==>
            var r := Admit(s, a, closed);
            && Inv(r.s) && Total(r.s) == Total(s) + 1
            && Held(r.s) == Held(s) + multiset{a.fd}
            && EndsWith(TargetQueue(r.s, a.isVip), Request(a.fd, a.time))
  {
    if Shape(s) && Total(s) < s.capacity {
      if a.isVip {
        AppendFacts(s.vipWaiting, a.fd, a.time);
      } else {
        AppendFacts(s.waiting, a.fd, a.time);
      }
    }
  }

  /** Enqueueing a real descriptor on a queue with room adds exactly that descriptor, at
      the back. */
  lemma AppendFacts(q: Queue, fd: nat, time: int)
    requires RealDescriptors(q) && |q.items| < q.maxSize
    ensures var q' := Enqueue(q, fd, time);
            && RealDescriptors(q') && Size(q') == Size(q) + 1 && q'.maxSize == q.maxSize
            && multiset(Fds(q'.items)) == multiset(Fds(q.items)) + multiset{fd}
            && EndsWith(q', Request(fd, time))
  {
    var req := Request(fd, time);
    FdsAppend(q.items, [req]);
    assert forall x :: x in q.items + [req] ==> x in q.items || x == req;
  }

  /** After block-flush's drain a standard arrival is closed and a VIP arrival admitted;
      until then the accepting thread keeps waiting. */
  lemma AfterDrainFacts(s: State, a: Arrival)
    ensures Inv(s) ==>
            var r := AfterDrain(s, a);
            && (r.Routed? ==> r.closed == [] && Inv(r.s) && Held(r.s) == Held(s) + multiset{a.fd}
                              && EndsWith(TargetQueue(r.s, a.isVip), Request(a.fd, a.time)))
            && (r.Discarded? ==> r.s == s)
    ensures var r := AfterDrain(s, a);
            && (r == MustWait(WaitDrain) <==> Total(s) != 0)
            && (Total(s) == 0 ==> (r.Routed? <==> a.isVip) && (r == Discarded(s, [a.fd]) <==> !a.isVip))
  {
    if Inv(s) && Total(s) == 0 && a.isVip {
      AdmitFacts(s, a, []);
    }
  }

  /** Dropping the first `k` waiting requests hands exactly their descriptors back. */
  lemma DropPrefixFacts(s: State, k: nat)
    requires k <= |s.waiting.items|
    ensures var s' := s.(waiting := s.waiting.(items := s.waiting.items[k..]));
            Held(s') + multiset(Fds(s.waiting.items[..k])) == Held(s) && Total(s') == Total(s) - k
  {
    var w := s.waiting.items;
    assert w == w[..k] + w[k..];
    FdsAppend(w[..k], w[k..]);
  }

  /** Dropping the newest waiting request hands exactly its descriptor back. */
  lemma DropLastFacts(s: State)
    requires !IsEmpty(s.waiting)
    ensures var p := DequeueTail(s.waiting);
            var s' := s.(waiting := p.rest);
            Held(s') + multiset{p.fd} == Held(s) && Total(s') == Total(s) - 1
  {
    var w := s.waiting.items;
    var p := DequeueTail(s.waiting);
    assert w == p.rest.items + [w[|w| - 1]];
    FdsAppend(p.rest.items, [w[|w| - 1]]);
  }

  lemma DropTailFacts(s: State, a: Arrival)
    requires Inv(s) && Total(s) >= s.capacity && !IsEmpty(s.waiting) && a.isVip
    requires s.policy == DropTail
    ensures var r := Overload(s, a, []);
            && r.Routed? && r.closed == [s.waiting.items[|s.waiting.items| - 1].fd]
            && Inv(r.s) && Held(r.s) + multiset(r.closed) == Held(s) + multiset{a.fd}
            && EndsWith(TargetQueue(r.s, a.isVip), Request(a.fd, a.time))
  {
    var w := s.waiting.items;
    var p := DequeueTail(s.waiting);
    var s' := s.(waiting := p.rest);
    assert w[|w| - 1] in w;
    assert p.fd >= 0;
    DropLastFacts(s);
    assert Shape(s') by {
      assert forall req :: req in p.rest.items ==> req in w;
    }
    AdmitFacts(s', a, [p.fd]);
  }

  lemma DropHeadFacts(s: State, a: Arrival)
    requires Inv(s) && Total(s) >= s.capacity && !IsEmpty(s.waiting)
    requires s.policy == DropHead
    ensures var r := Overload(s, a, []);
            && r.Routed? && r.closed == [s.waiting.items[0].fd]
            && Inv(r.s) && Held(r.s) + multiset(r.closed) == Held(s) + multiset{a.fd}
            && EndsWith(TargetQueue(r.s, a.isVip), Request(a.fd, a.time))
  {
    var p := Dequeue(s.waiting);
    DropPrefixFacts(s, 1);
    assert s.waiting.items[..1] == [s.waiting.items[0]];
    assert p.fd >= 0;
    AdmitFacts(s.(waiting := p.rest), a, [p.fd]);
  }

  lemma RandomFacts(s: State, a: Arrival, coins: seq<bool>)
    requires Inv(s) && Total(s) >= s.capacity && !IsEmpty(s.waiting)
    requires s.policy == Random
    ensures var r := Overload(s, a, coins);
            && (r.Routed? || r.Flipping?)
            && (r.Routed? ==> r.closed == Fds(s.waiting.items[..(|s.waiting.items| + 1) / 2])
                              && Inv(r.s) && Held(r.s) + multiset(r.closed) == Held(s) + multiset{a.fd}
                              && EndsWith(TargetQueue(r.s, a.isVip), Request(a.fd, a.time)))
  {
    var e := RandomDequeueHalfUp(s.waiting, coins);
    if e.Evicted? {
      var k := (|s.waiting.items| + 1) / 2;
      DropPrefixFacts(s, k);
      AdmitFacts(s.(waiting := e.rest), a, e.closed);
    }
  }

  /** What each overload policy does to a saturated state. */
  lemma OverloadFacts(s: State, a: Arrival, coins: seq<bool>)
    requires !IsEmpty(s.waiting) && Total(s) >= s.capacity
    ensures var r := Overload(s, a, coins);
            && (Inv(s) && (r.Routed? || r.Discarded?) ==> Inv(r.s))
            && (Inv(s) && r.Routed? ==> Held(r.s) + multiset(r.closed) == Held(s) + multiset{a.fd})
            && (Inv(s) && r.Routed? ==> EndsWith(TargetQueue(r.s, a.isVip), Request(a.fd, a.time)))
            && (r.Discarded? ==> r.s == s && r.closed == [a.fd] && !a.isVip)
            && (r.MustWait? ==> (r.phase == WaitSpace && Total(s) >= s.capacity) || (r.phase == WaitDrain && Total(s) != 0))
            && (r.Routed? && s.policy == DropTail ==> a.isVip)
            && (Inv(s) && s.policy == DropHead ==> r.Routed? && r.closed == [s.waiting.items[0].fd])
            && (Inv(s) && s.policy == DropTail && a.isVip ==>
                  r.Routed? && r.closed == [s.waiting.items[|s.waiting.items| - 1].fd])
            && (s.policy == Random && r.Routed? ==> r.closed == Fds(s.waiting.items[..(|s.waiting.items| + 1) / 2]))
            && (r == MustWait(WaitSpace) <==> s.policy == Block)
            && (s.policy == DropTail && !a.isVip ==> r == Discarded(s, [a.fd]))
            && (s.policy == BlockFlush ==> r == MustWait(WaitDrain))
            && (s.policy == Random ==> (r.Flipping? <==> Heads(coins) < (|s.waiting.items| + 1) / 2))
  {
    match s.policy
    case DropTail =>
      if a.isVip && Inv(s) {
        DropTailFacts(s, a);
      }
    case DropHead =>
      if Inv(s) {
        DropHeadFacts(s, a);
      }
    case Random =>
      if Inv(s) {
        RandomFacts(s, a, coins);
      }
    case BlockFlush =>
      AfterDrainFacts(s, a);
    case Block =>
  }

  /** The random policy as written can leave the load above the capacity: with capacity 2,
      one request in service and one waiting, a standard arrival drops ⌊1/2⌋ = 0 requests
      and is queued, giving a load of 3. */
  lemma RandomBranchAsWrittenOverfills()
    ensures var s := State(Queue([], 2), Queue([Request(10, 0)], 2), Queue([Request(11, 0)], 4), false, 2, Random);
            var r := RandomBranchAsWritten(s, Arrival(12, 1, false), []);
            Inv(s) && Saturated(s, Fresh) && r.Routed? && r.closed == [] && Total(r.s) == 3
  {
    var s := State(Queue([], 2), Queue([Request(10, 0)], 2), Queue([Request(11, 0)], 4), false, 2, Random);
    assert RandomDequeue(s.waiting, []) == Evicted(s.waiting, []);
  }

  /** The rounded-up drop keeps every saturated state within capacity, and frees at least one slot. */
  lemma RandomBranchKeepsCapacity(s: State, a: Arrival, coins: seq<bool>)
    requires Inv(s) && Saturated(s, Fresh) && s.policy == Random
    ensures var r := RandomBranch(s, a, coins);
            r.Routed? ==> Inv(r.s) && |r.closed| >= 1
  {
    RandomFacts(s, a, coins);
  }

  /** Drop-tail, capacity 2, standard A and B waiting: a VIP arrival C closes B, is
      queued for the VIP thread, and leaves A waiting. */
  lemma DropTailExample()
    ensures var s := State(Queue([], 2), Queue([Request(1, 0), Request(2, 1)], 2), Queue([], 1), false, 2, DropTail);
            var r := AcceptStep(s, Arrival(3, 2, true), Fresh, []);
            r == Routed(s.(vipWaiting := Queue([Request(3, 2)], 2), waiting := Queue([Request(1, 0)], 2)), [2], SignalVip)
  {
    var s := State(Queue([], 2), Queue([Request(1, 0), Request(2, 1)], 2), Queue([], 1), false, 2, DropTail);
    assert DequeueTail(s.waiting).rest.items == [Request(1, 0)];
  }

  /** Drop-head with the same queues: a standard arrival D closes A and queues behind B. */
  lemma DropHeadExample()
    ensures var s := State(Queue([], 2), Queue([Request(1, 0), Request(2, 1)], 2), Queue([], 1), false, 2, DropHead);
            var r := AcceptStep(s, Arrival(4, 2, false), Fresh, []);
            r == Routed(s.(waiting := Queue([Request(2, 1), Request(4, 2)], 2)), [1], SignalWorker)
  {
    var s := State(Queue([], 2), Queue([Request(1, 0), Request(2, 1)], 2), Queue([], 1), false, 2, DropHead);
    assert Dequeue(s.waiting).rest.items == [Request(2, 1)];
  }

  // ---------------------------------------------------------------------------
  // Worker threads and the VIP thread.

  /** The outcome of a thread's take section: sleep on its condition variable, or the
      descriptor and arrival time it now serves and the state it leaves. */
  datatype Take = Sleep | Took(fd: int, arrival: int, s: State)

  /** The condition variables a retire section signals. */
  datatype Wakeups = Wakeups(newRequestAllowed: bool, queuesEmpty: bool, broadcastWorkers: bool)

  /** The signals every retire section sends once the load has been updated. */
  function RetireWakeups(s: State, broadcast: bool): (w: Wakeups)
    ensures w.newRequestAllowed <==> Total(s) < s.capacity
    ensures w.queuesEmpty <==> Total(s) == 0
  {
    Wakeups(Total(s) < s.capacity, Total(s) == 0, broadcast)
  }

  /** A worker takes the head of the standard queue only when it is non-empty, no VIP
      request is queued and the VIP thread is idle; the request moves to the handling queue. */
  function WorkerTake(s: State): (r: Take)
    ensures r.Took? <==> !IsEmpty(s.waiting) && IsEmpty(s.vipWaiting) && !s.handlingVip
    ensures r.Took? ==>
              && s.waiting.items == [Request(r.fd, r.arrival)] + r.s.waiting.items
              && r.s.handling == Enqueue(s.handling, r.fd, r.arrival)
              && r.s.vipWaiting == s.vipWaiting && r.s.handlingVip == s.handlingVip
    ensures r.Took? ==> Total(r.s) <= Total(s)
  {
    if IsEmpty(s.waiting) || !IsEmpty(s.vipWaiting) || s.handlingVip then Sleep
    else
      var arrival := HeadArrivalTime(s.waiting);
      var p := Dequeue(s.waiting);
      Took(p.fd, arrival, s.(waiting := p.rest, handling := Enqueue(s.handling, p.fd, arrival)))
  }

  /** The worker's first retire section. The finished descriptor leaves the handling queue
      and the accepting thread is signalled. If the handler asked to skip, the newest
      standard request is taken at once, without checking VIP priority, and recorded
      as handled with the head's arrival time; `skipFd` is `NotFound` when there was none. */
  datatype Retired = Retired(s: State, wakeups: Wakeups, skipFd: int, skipArrival: int)

  function WorkerRetire(s: State, fd: int, skip: bool): (r: Retired)
    ensures r.s.vipWaiting == s.vipWaiting && r.s.handlingVip == s.handlingVip
    ensures r.wakeups.newRequestAllowed <==> Total(s.(handling := DequeueByReq(s.handling, fd))) < s.capacity
    ensures r.wakeups.queuesEmpty <==> Total(s.(handling := DequeueByReq(s.handling, fd))) == 0
    ensures !r.wakeups.broadcastWorkers
    ensures r.skipFd != NotFound ==> skip && !IsEmpty(s.waiting)
    ensures skip && !IsEmpty(s.waiting) && RealDescriptors(s.waiting) ==>
              && s.waiting.items == r.s.waiting.items + [Request(r.skipFd, s.waiting.items[|s.waiting.items| - 1].arrival)]
              && r.skipArrival == s.waiting.items[0].arrival
              && r.s.handling == Enqueue(DequeueByReq(s.handling, fd), r.skipFd, r.skipArrival)
    ensures !skip || IsEmpty(s.waiting) ==>
              r.skipFd == NotFound && r.s == s.(handling := DequeueByReq(s.handling, fd))
    ensures Total(r.s) <= Total(s)
  {
    var s1 := s.(handling := DequeueByReq(s.handling, fd));
    assert Total(s1) <= Total(s);
    var wakeups := RetireWakeups(s1, false);
    if !skip then Retired(s1, wakeups, NotFound, 0)
    else
      var arrival := HeadArrivalTime(s1.waiting);
      var p := SkipDequeue(s1.waiting);
      if p.fd == NotFound then Retired(s1, wakeups, NotFound, 0)
      else Retired(s1.(waiting := p.rest, handling := Enqueue(s1.handling, p.fd, arrival)), wakeups, p.fd, arrival)
  }

  /** The worker's second retire section, after serving a skipped-to request. */
  function SkipRetire(s: State, skipFd: int): (r: (State, Wakeups))
    ensures r.0 == s.(handling := DequeueByReq(s.handling, skipFd))
    ensures skipFd in Fds(s.handling.items) ==> Total(r.0) == Total(s) - 1
    ensures r.1.newRequestAllowed <==> Total(r.0) < s.capacity
    ensures r.1.queuesEmpty <==> Total(r.0) == 0
    ensures !r.1.broadcastWorkers
  {
    var s1 := s.(handling := DequeueByReq(s.handling, skipFd));
    (s1, RetireWakeups(s1, false))
  }

  /** The VIP thread takes the head of its queue whenever there is one and marks itself busy. */
  function VipTake(s: State): (r: Take)
    ensures r.Took? <==> !IsEmpty(s.vipWaiting)
    ensures r.Took? ==>
              && s.vipWaiting.items == [Request(r.fd, r.arrival)] + r.s.vipWaiting.items
              && r.s.handlingVip
              && r.s.waiting == s.waiting && r.s.handling == s.handling
    ensures r.Took? && !s.handlingVip ==> Total(r.s) == Total(s)
  {
    if IsEmpty(s.vipWaiting) then Sleep
    else
      var arrival := HeadArrivalTime(s.vipWaiting);
      var p := Dequeue(s.vipWaiting);
      Took(p.fd, arrival, s.(vipWaiting := p.rest, handlingVip := true))
  }

  /** The VIP thread's retire section: it becomes idle, and all workers are woken exactly
      when no VIP request is left and standard requests are waiting. */
  function VipRetire(s: State): (r: (State, Wakeups))
    ensures r.0 == s.(handlingVip := false)
    ensures r.1.broadcastWorkers <==> IsEmpty(s.vipWaiting) && !IsEmpty(s.waiting)
    ensures r.1.broadcastWorkers ==> WorkerTake(r.0).Took?
    ensures r.1.newRequestAllowed <==> Total(r.0) < s.capacity
    ensures r.1.queuesEmpty <==> Total(r.0) == 0
    ensures s.handlingVip ==> Total(r.0) == Total(s) - 1
  {
    var s1 := s.(handlingVip := false);
    var broadcast := IsEmpty(s1.vipWaiting) && !IsEmpty(s1.waiting) && !s1.handlingVip;
    (s1, RetireWakeups(s1, broadcast))
  }

  /** Every thread's step keeps the capacity invariant. */
  lemma WorkerTakeKeepsInv(s: State)
    requires Inv(s)
    ensures WorkerTake(s).Took? ==> Inv(WorkerTake(s).s)
  {
    var r := WorkerTake(s);
    if r.Took? {
      assert forall x :: x in r.s.waiting.items ==> x in s.waiting.items;
      assert forall x :: x in r.s.handling.items ==> x in s.handling.items || x == s.waiting.items[0];
    }
  }

  lemma WorkerRetireKeepsInv(s: State, fd: int, skip: bool)
    requires Inv(s)
    ensures Inv(WorkerRetire(s, fd, skip).s)
  {
    var h := DequeueByReq(s.handling, fd);
    assert forall x :: x in h.items ==> x in s.handling.items;
    var r := WorkerRetire(s, fd, skip);
    if !skip || IsEmpty(s.waiting) {
      assert r.s == s.(handling := h);
    } else {
      var w := s.waiting.items;
      assert w == r.s.waiting.items + [Request(r.skipFd, w[|w| - 1].arrival)];
      assert r.skipFd >= 0 by {
        assert w[|w| - 1] in w;
      }
      assert RealDescriptors(r.s.waiting) by {
        forall x | x in r.s.waiting.items
          ensures x.fd >= 0
        {
          assert x in w;
        }
      }
      assert RealDescriptors(r.s.handling) by {
        EnqueueRealDescriptors(h, r.skipFd, r.skipArrival);
      }
    }
  }

  /** Enqueueing a real descriptor onto a queue of real descriptors keeps them all real. */
  lemma EnqueueRealDescriptors(q: Queue, fd: int, arrival: int)
    requires RealDescriptors(q) && fd >= 0
    ensures RealDescriptors(Enqueue(q, fd, arrival))
  {
  }

  lemma SkipRetireKeepsInv(s: State, fd: int)
    requires Inv(s)
    ensures Inv(SkipRetire(s, fd).0)
  {
    assert forall x :: x in DequeueByReq(s.handling, fd).items ==> x in s.handling.items;
  }

  lemma VipStepsKeepInv(s: State)
    requires Inv(s)
    ensures VipTake(s).Took? ==> Inv(VipTake(s).s)
    ensures Inv(VipRetire(s).0)
  {
    var r := VipTake(s);
    if r.Took? {
      assert forall x :: x in r.s.vipWaiting.items ==> x in s.vipWaiting.items;
    }
  }

  /** The empty_queue signal is what ends block-flush's wait: whenever a retire section
      sends it, the accepting thread's next drain check no longer waits. */
  lemma EmptySignalEndsDrain(s: State, fd: int, skip: bool, a: Arrival, coins: seq<bool>)
    ensures var r := WorkerRetire(s, fd, skip);
            r.wakeups.queuesEmpty ==> AcceptStep(r.s, a, WaitDrain, coins) != MustWait(WaitDrain)
    ensures var r := SkipRetire(s, fd);
            r.1.queuesEmpty ==> AcceptStep(r.0, a, WaitDrain, coins) != MustWait(WaitDrain)
    ensures var r := VipRetire(s);
            r.1.queuesEmpty ==> AcceptStep(r.0, a, WaitDrain, coins) != MustWait(WaitDrain)
  {
    var r := WorkerRetire(s, fd, skip);
    if r.wakeups.queuesEmpty {
      assert IsEmpty(s.waiting);
      assert r.s == s.(handling := DequeueByReq(s.handling, fd));
    }
  }

  /** Priority: while VIP work is queued or in service, no worker leaves its wait. */
  lemma VipPriority(s: State)
    requires !IsEmpty(s.vipWaiting) || s.handlingVip
    ensures WorkerTake(s) == Sleep
  {
  }
}

=== FILE: shell.dfy ===
/** The pure string and bookkeeping helpers of the small shell (Commands.cpp):
    whitespace trimming, tokenising, the argument predicates, background-sign
    stripping, alias expansion, prompt formatting, the order in which a command
    line is classified, and the list of background jobs. Strings are sequences
    of characters; a C string is the sequence up to its terminator. */
module Shell {
  import opened Wrappers

  /** The characters the shell treats as blanks (Commands.cpp:21). These are
      also the characters `>>` on an input string stream skips in the C locale;
      form feed and vertical tab are written by code point. */
  const Whitespace: string := " \n\r\t\U{0C}\U{0B}"

  predicate IsSpace(c: char) {
    c in Whitespace
  }

  predicate AllSpace(s: string) {
    forall j :: 0 <= j < |s| ==> IsSpace(s[j])
  }

  // ---------------------------------------------------------------- trimming

  /** `find_first_not_of(Whitespace)`, with `|s|` standing for `npos`. */
  function FirstNonSpace(s: string): (i: nat)
    ensures i <= |s|
    ensures AllSpace(s[..i])
    ensures i < |s| ==> !IsSpace(s[i])
    ensures i == |s| <==> AllSpace(s)
  {
    if |s| == 0 || !IsSpace(s[0]) then 0
    else
      var k := FirstNonSpace(s[1..]);
      assert s[..k + 1] == [s[0]] + s[1..][..k];
      assert s == [s[0]] + s[1..];
      k + 1
  }

  /** `find_last_not_of(Whitespace)`, with -1 standing for `npos`. */
  function LastNonSpace(s: string): (i: int)
    ensures -1 <= i < |s|
    ensures AllSpace(s[i + 1..])
    ensures i >= 0 ==> !IsSpace(s[i])
    ensures i == -1 <==> AllSpace(s)
  {
    if |s| == 0 then -1
    else if !IsSpace(s[|s| - 1]) then |s| - 1
    else
      var k := LastNonSpace(s[..|s| - 1]);
      assert s[k + 1..] == s[..|s| - 1][k + 1..] + [s[|s| - 1]];
      assert s == s[..|s| - 1] + [s[|s| - 1]];
      k
  }

  /** `_ltrim`: the input from its first non-blank character on; "" when there is none. */
  function LTrim(s: string): (r: string)
    ensures |r| <= |s| && r == s[|s| - |r|..]
    ensures AllSpace(s[..|s| - |r|])
    ensures r == "" || !IsSpace(r[0])
    ensures r == "" <==> AllSpace(s)
  {
    var start := FirstNonSpace(s);
    if start == |s| then "" else s[start..]
  }

  /** `_rtrim`: the input up to its last non-blank character; "" when there is none. */
  function RTrim(s: string): (r: string)
    ensures |r| <= |s| && r == s[..|r|]
    ensures AllSpace(s[|r|..])
    ensures r == "" || !IsSpace(r[|r| - 1])
    ensures r == "" <==> AllSpace(s)
  {
    var end := LastNonSpace(s);
    if end == -1 then "" else s[..end + 1]
  }

  /** `_trim`: the input from its first to its last non-blank character, "" when there is
      none. Only blanks are cut away on either side (`TrimIsRTrimOfLTrim` shows this is
      the code's `_rtrim(_ltrim(s))`). */
  function Trim(s: string): (r: string)
    ensures var i := FirstNonSpace(s);
            i + |r| <= |s| && r == s[i..i + |r|] && AllSpace(s[..i]) && AllSpace(s[i + |r|..])
    ensures r == "" || (!IsSpace(r[0]) && !IsSpace(r[|r| - 1]))
    ensures r == "" <==> AllSpace(s)
    ensures FirstNonSpace(s) < |s| ==> r == s[FirstNonSpace(s)..LastNonSpace(s) + 1]
  {
    var i := FirstNonSpace(s);
    if i == |s| then ""
    else
      var j := LastNonSpace(s);
      s[i..j + 1]
  }

  /** The last non-blank position is pinned down by its two properties. */
  lemma LastNonSpaceUnique(s: string, k: int)
    requires -1 <= k < |s| && AllSpace(s[k + 1..]) && (k >= 0 ==> !IsSpace(s[k]))
    ensures LastNonSpace(s) == k
  {
    BlankTail(s, k);
    BlankTail(s, LastNonSpace(s));
  }

  /** Every position of an all-blank tail holds a blank. */
  lemma BlankTail(s: string, k: int)
    requires -1 <= k < |s| && AllSpace(s[k + 1..])
    ensures forall u :: k + 1 <= u < |s| ==> IsSpace(s[u])
  {
    forall u | k + 1 <= u < |s|
      ensures IsSpace(s[u])
    {
      assert s[k + 1..][u - k - 1] == s[u];
    }
  }

  /** Trimming is the code's composition: right-trim the left-trimmed input. */
  lemma TrimIsRTrimOfLTrim(s: string)
    ensures Trim(s) == RTrim(LTrim(s))
  {
    if FirstNonSpace(s) < |s| {
      LTrimBound(s);
      RTrimOfSuffix(s, FirstNonSpace(s), LastNonSpace(s));
    } else {
      TrimOfBlank(s);
    }
  }

  /** Right-trimming the suffix from a non-blank character stops at the last one. */
  lemma RTrimOfSuffix(s: string, i: nat, j: int)
    requires i < |s| && !IsSpace(s[i]) && j == LastNonSpace(s)
    ensures i <= j && RTrim(s[i..]) == s[i..j + 1]
  {
    NonBlankAtMostLast(s, i);
    LastNonSpaceOfSuffix(s, i);
    RTrimBound(s[i..], j - i);
    SuffixSlices(s, i, j - i + 1);
  }

  /** On all-blank input every trim gives "". */
  lemma TrimOfBlank(s: string)
    requires FirstNonSpace(s) == |s|
    ensures Trim(s) == "" && LTrim(s) == "" && RTrim("") == ""
  {
  }

  /** On input that is not all blank, left-trimming keeps the suffix from the first
      non-blank character. */
  lemma LTrimBound(s: string)
    requires FirstNonSpace(s) < |s|
    ensures LTrim(s) == s[FirstNonSpace(s)..]
  {
  }

  /** On input with a non-blank character, right-trimming keeps the prefix up to the last. */
  lemma RTrimBound(t: string, e: nat)
    requires LastNonSpace(t) == e
    ensures RTrim(t) == t[..e + 1]
  {
  }

  /** Cutting off a prefix that ends before a non-blank character moves the last
      non-blank position down by the prefix's length. */
  lemma {:induction false} LastNonSpaceOfSuffix(s: string, i: nat)
    requires i < |s| && !IsSpace(s[i])
    ensures LastNonSpace(s[i..]) == LastNonSpace(s) - i
    decreases |s|
  {
    var t := s[i..];
    assert t[|t| - 1] == s[|s| - 1];
    if IsSpace(s[|s| - 1]) {
      var p := s[..|s| - 1];
      assert t[..|t| - 1] == p[i..];
      assert p[i] == s[i];
      LastNonSpaceOfSuffix(p, i);
    }
  }

  /** No non-blank character lies after the last one. */
  lemma NonBlankAtMostLast(s: string, u: nat)
    requires u < |s| && !IsSpace(s[u])
    ensures u <= LastNonSpace(s)
  {
    BlankTail(s, LastNonSpace(s));
  }

  /** Slicing a suffix is slicing the whole string further along. */
  lemma SuffixSlices(s: string, i: nat, n: nat)
    requires i + n <= |s|
    ensures s[i..][..n] == s[i..i + n] && s[i..][n..] == s[i + n..]
  {
  }

  /** Trimming yields "" exactly for blank input. */
  lemma TrimEmptyIffBlank(s: string)
    ensures Trim(s) == "" <==> AllSpace(s)
  {
  }

  /** Trimming twice is trimming once. */
  lemma TrimIdempotent(s: string)
    ensures Trim(Trim(s)) == Trim(s)
  {
    var r := Trim(s);
    if r != "" {
      assert FirstNonSpace(r) == 0;
      LastNonSpaceUnique(r, |r| - 1);
      assert r[0..|r|] == r;
    }
  }

  // -------------------------------------------------------------- tokenising

  /** A word as `>>` reads it: non-empty and free of blanks. */
  predicate IsToken(t: string) {
    |t| > 0 && forall j :: 0 <= j < |t| ==> !IsSpace(t[j])
  }

  /** The longest blank-free prefix. */
  function Word(s: string): (w: string)
    ensures |w| <= |s| && w == s[..|w|]
    ensures forall j :: 0 <= j < |w| ==> !IsSpace(w[j])
    ensures |w| < |s| ==> IsSpace(s[|w|])
  {
    if |s| == 0 || IsSpace(s[0]) then ""
    else [s[0]] + Word(s[1..])
  }

  /** The words of a line, in order, as the `for (std::string s; iss >> s;)` loop of
      `_parseCommandLine` reads them. */
  function Tokenize(s: string): (ts: seq<string>)
    ensures forall k :: 0 <= k < |ts| ==> IsToken(ts[k])
    decreases |s|
  {
    if |s| == 0 then []
    else if IsSpace(s[0]) then Tokenize(s[1..])
    else
      var w := Word(s);
      [w] + Tokenize(s[|w|..])
  }

  /** `_parseCommandLine`: the words of the trimmed line (Commands.cpp:67-80). */
  function ParseCommandLine(line: string): (args: seq<string>)
    ensures args == Tokenize(line)
    ensures forall k :: 0 <= k < |args| ==> IsToken(args[k])
  {
    TrimKeepsTokens(line);
    Tokenize(Trim(line))
  }

  /** Words joined by single spaces: the inverse of tokenising. */
  function Join(ts: seq<string>): string {
    if |ts| == 0 then "" else ts[0] + JoinRest(ts[1..])
  }

  /** Each word preceded by one space, as `replaceAliased` appends the remaining arguments. */
  function JoinRest(ts: seq<string>): string {
    if |ts| == 0 then "" else " " + ts[0] + JoinRest(ts[1..])
  }

  /** Appending text that starts with a blank (or nothing) to a string does not change its
      first word unless that word ran to the end. */
  lemma {:induction false} WordAppend(x: string, y: string)
    ensures |Word(x)| < |x| || |y| == 0 || IsSpace(y[0]) ==> Word(x + y) == Word(x)
  {
    if |x| == 0 {
      assert x + y == y;
    } else if IsSpace(x[0]) {
      assert (x + y)[0] == x[0];
    } else {
      assert (x + y)[0] == x[0];
      assert (x + y)[1..] == x[1..] + y;
      WordAppend(x[1..], y);
    }
  }

  /** Blanks read as no words at all. */
  lemma {:induction false} TokenizeBlank(s: string)
    requires AllSpace(s)
    ensures Tokenize(s) == []
    decreases |s|
  {
    if |s| > 0 {
      TokenizeBlank(s[1..]);
    }
  }

  /** A line has no words exactly when it is blank. */
  lemma {:induction false} TokensEmptyIffBlank(s: string)
    ensures Tokenize(s) == [] <==> AllSpace(s)
    decreases |s|
  {
    if AllSpace(s) {
      TokenizeBlank(s);
    } else if |s| > 0 && IsSpace(s[0]) {
      TokensEmptyIffBlank(s[1..]);
      assert !AllSpace(s[1..]) by {
        assert forall j :: 1 <= j < |s| ==> s[j] == s[1..][j - 1];
      }
    }
  }

  /** Leading blanks are skipped. */
  lemma {:induction false} TokenizeSkipsBlanks(ws: string, x: string)
    requires AllSpace(ws)
    ensures Tokenize(ws + x) == Tokenize(x)
    decreases |ws|
  {
    if |ws| > 0 {
      assert (ws + x)[1..] == ws[1..] + x;
      TokenizeSkipsBlanks(ws[1..], x);
    } else {
      assert ws + x == x;
    }
  }

  /** Two pieces separated by a blank read as the words of each, in order. */
  lemma {:induction false} TokenizeConcat(a: string, b: string)
    ensures |b| == 0 || IsSpace(b[0]) ==> Tokenize(a + b) == Tokenize(a) + Tokenize(b)
    decreases |a|
  {
    if |b| == 0 || IsSpace(b[0]) {
      if |a| == 0 {
        assert a + b == b;
      } else if IsSpace(a[0]) {
        ConcatBlankStep(a, b);
        TokenizeConcat(a[1..], b);
      } else {
        var w := Word(a);
        ConcatWordStep(a, b);
        TokenizeConcat(a[|w|..], b);
        assert [w] + (Tokenize(a[|w|..]) + Tokenize(b)) == [w] + Tokenize(a[|w|..]) + Tokenize(b);
      }
    }
  }

  /** A leading blank is skipped with or without text after it. */
  lemma ConcatBlankStep(a: string, b: string)
    requires |a| > 0 && IsSpace(a[0])
    ensures Tokenize(a + b) == Tokenize(a[1..] + b)
  {
    assert (a + b)[0] == a[0];
    assert (a + b)[1..] == a[1..] + b;
  }

  /** A leading word is read whole when a blank (or nothing) follows the text. */
  lemma ConcatWordStep(a: string, b: string)
    requires |a| > 0 && !IsSpace(a[0]) && (|b| == 0 || IsSpace(b[0]))
    ensures Tokenize(a + b) == [Word(a)] + Tokenize(a[|Word(a)|..] + b)
  {
    var w := Word(a);
    WordAppend(a, b);
    assert (a + b)[0] == a[0];
    DropOfConcat(a, b, |w|);
  }

  lemma DropOfConcat(a: string, b: string, k: nat)
    requires k <= |a|
    ensures (a + b)[k..] == a[k..] + b
  {
  }

  /** Trimming does not change the words of a line. */
  lemma TrimKeepsTokens(s: string)
    ensures Tokenize(Trim(s)) == Tokenize(s)
  {
    var r := Trim(s);
    var i := FirstNonSpace(s);
    var j := i + |r|;
    TokenizeFramed(s, i, j);
  }

  /** Blanks before and after a slice add no words. */
  lemma TokenizeFramed(s: string, i: nat, j: nat)
    requires i <= j <= |s| && AllSpace(s[..i]) && AllSpace(s[j..])
    ensures Tokenize(s) == Tokenize(s[i..j])
  {
    var head, r, tail := s[..i], s[i..j], s[j..];
    ThreeSlices(s, i, j);
    TokenizeSkipsBlanks(head, r + tail);
    TokenizeConcat(r, tail);
    TokenizeBlank(tail);
    assert Tokenize(r) + [] == Tokenize(r);
  }

  /** A string is its three consecutive slices. */
  lemma ThreeSlices(s: string, i: nat, j: nat)
    requires i <= j <= |s|
    ensures s == s[..i] + (s[i..j] + s[j..])
  {
  }

  /** A single word reads back as itself. */
  lemma {:induction false} TokenizeToken(t: string)
    requires IsToken(t)
    ensures Tokenize(t) == [t]
  {
    assert Word(t) == t by {
      WordAppend(t, "");
      WordIsWholeToken(t);
    }
    assert t[|t|..] == "";
  }

  lemma {:induction false} WordIsWholeToken(t: string)
    requires forall j :: 0 <= j < |t| ==> !IsSpace(t[j])
    ensures Word(t) == t
  {
    if |t| > 0 {
      WordIsWholeToken(t[1..]);
    }
  }

  /** Each word preceded by a space reads back as the words. */
  lemma {:induction false} TokenizeJoinRest(ts: seq<string>)
    requires forall k :: 0 <= k < |ts| ==> IsToken(ts[k])
    ensures Tokenize(JoinRest(ts)) == ts
  {
    if |ts| > 0 {
      var rest := JoinRest(ts[1..]);
      var x := ts[0] + rest;
      assert JoinRest(ts) == " " + x;
      assert (" " + x)[1..] == x;
      TokenizeJoinRest(ts[1..]);
      TokenizeConcat(ts[0], rest);
      TokenizeToken(ts[0]);
    }
  }

  /** Round trip: joining words with single spaces and reading them back gives the words. */
  lemma TokenizeJoin(ts: seq<string>)
    requires forall k :: 0 <= k < |ts| ==> IsToken(ts[k])
    ensures ParseCommandLine(Join(ts)) == ts
  {
    if |ts| > 0 {
      TokenizeJoinRest(ts[1..]);
      TokenizeConcat(ts[0], JoinRest(ts[1..]));
      TokenizeToken(ts[0]);
    }
  }

  // -------------------------------------------------------- argument checks

  predicate IsDigit(c: char) {
    '0' <= c <= '9'
  }

  predicate AllDigits(s: string) {
    forall j :: 0 <= j < |s| ==> IsDigit(s[j])
  }

  /** `_isPositiveInteger` (Commands.cpp:150-159): scans for a non-digit. */
  method IsPositiveInteger(s: string) returns (b: bool)
    ensures b <==> |s| > 0 && AllDigits(s)
  {
    if |s| == 0 {
      return false;
    }
    var i := 0;
    while i < |s|
      invariant 0 <= i <= |s|
      invariant AllDigits(s[..i])
    {
      if !IsDigit(s[i]) {
        return false;
      }
      assert s[..i + 1] == s[..i] + [s[i]];
      i := i + 1;
    }
    assert s[..i] == s;
    return true;
  }

  /** The decimal value of a run of digits, as `stoi` reads it. */
  function DigitsValue(d: string): nat
    requires AllDigits(d)
  {
    if |d| == 0 then 0
    else DigitsValue(d[..|d| - 1]) * 10 + (d[|d| - 1] as int - '0' as int)
  }

  /** A dash followed by at least one digit and nothing else. */
  predicate SignalSyntax(s: string) {
    |s| >= 2 && s[0] == '-' && AllDigits(s[1..])
  }

  /** The three ways `_isSingal` can end: true, false, or `stoi` throwing `out_of_range`
      because the number does not fit in an `int`. */
  datatype SignalCheck = SignalOk | NotSignal | StoiOutOfRange

  /** `_isSingal` (Commands.cpp:164-180). `-stoi(str)` is evaluated on 32-bit integers:
      `stoi` throws below -2^31, and negating -2^31 wraps to itself. */
  method IsSignal(s: string) returns (r: SignalCheck)
    ensures r == StoiOutOfRange <==> SignalSyntax(s) && DigitsValue(s[1..]) > 0x8000_0000
    ensures r == SignalOk <==> SignalSyntax(s) && DigitsValue(s[1..]) <= 32
  {
    if |s| == 0 || |s| == 1 {
      return NotSignal;
    }
    if s[0] != '-' {
      return NotSignal;
    }
    var value := 0;
    var i := 1;
    while i < |s|
      invariant 1 <= i <= |s|
      invariant AllDigits(s[1..i]) && value == DigitsValue(s[1..i])
    {
      if !IsDigit(s[i]) {
        assert !AllDigits(s[1..]) by {
          assert s[1..][i - 1] == s[i];
        }
        return NotSignal;
      }
      assert s[1..i + 1][..i - 1] == s[1..i];
      value := value * 10 + (s[i] as int - '0' as int);
      i := i + 1;
    }
    assert s[1..i] == s[1..];
    if value > 0x8000_0000 {
      return StoiOutOfRange;
    }
    var n := -value;
    var negated := if n == -0x8000_0000 then n else -n;
    if negated < 0 || negated > 32 {
      return NotSignal;
    }
    return SignalOk;
  }

  /** "-0" passes, although the comment above `_isSingal` promises the range [1, 32]. */
  lemma SignalZeroAccepted()
    ensures SignalSyntax("-0") && DigitsValue("-0"[1..]) <= 32
  {
    assert "-0"[1..] == "0";
    assert "0"[..0] == "";
  }

  /** `_isBackgroundComamnd` (Commands.cpp:97-100): the last non-blank character is '&'.
      The code indexes at `npos` on a blank line, so a non-blank line is required. */
  function IsBackgroundCommand(line: string): (b: bool)
    requires !AllSpace(line)
    ensures b <==> RTrim(line) != "" && RTrim(line)[|RTrim(line)| - 1] == '&'
  {
    var i := LastNonSpace(line);
    assert i >= 0;
    line[i] == '&'
  }

  /** `_removeBackgroundSign` (Commands.cpp:105-121): when the last non-blank character is
      '&' it becomes a space and the string is cut right after it. The cut position is
      searched in the unmodified copy, so it lands just after the former '&': the result
      keeps the blanks before the '&' and ends with one space. */
  function RemoveBackgroundSign(line: string): (r: string)
    ensures var t := RTrim(line);
            if t != "" && t[|t| - 1] == '&' then
              |r| == |t| && r[..|r| - 1] + "&" == t && r[|r| - 1] == ' '
            else r == line
  {
    var idx := LastNonSpace(line);
    if idx == -1 then line
    else if line[idx] != '&' then line
    else
      var r := line[..idx] + " ";
      assert r[..|r| - 1] == line[..idx];
      r
  }

  predicate IsRedirectionToken(t: string) {
    t == ">" || t == ">>"
  }

  predicate IsPipeToken(t: string) {
    t == "|" || t == "|&"
  }

  /** `isRedirection` (Commands.cpp:126-133): some argument is `>` or `>>`. */
  function IsRedirection(args: seq<string>): (b: bool)
    ensures b <==> exists k :: 0 <= k < |args| && IsRedirectionToken(args[k])
  {
    if |args| == 0 then false
    else if IsRedirectionToken(args[0]) then true
    else
      var b := IsRedirection(args[1..]);
      assert forall k :: 1 <= k < |args| ==> args[k] == args[1..][k - 1];
      b
  }

  /** `isPipe` (Commands.cpp:138-145): some argument is `|` or `|&`. */
  function IsPipe(args: seq<string>): (b: bool)
    ensures b <==> exists k :: 0 <= k < |args| && IsPipeToken(args[k])
  {
    if |args| == 0 then false
    else if IsPipeToken(args[0]) then true
    else
      var b := IsPipe(args[1..]);
      assert forall k :: 1 <= k < |args| ==> args[k] == args[1..][k - 1];
      b
  }

  // ------------------------------------------------------------- aliases

  /** `replaceAliased` (Commands.cpp:591-613): when the first word names an alias, the
      alias's text followed by the remaining words, each after one space; otherwise the
      line as given. */
  function ReplaceAliased(line: string, aliases: map<string, string>): (r: string)
    ensures var args := ParseCommandLine(line);
            !(|args| > 0 && args[0] in aliases) ==> r == line
    ensures var args := ParseCommandLine(line);
            |args| > 0 && args[0] in aliases ==>
              var v := aliases[args[0]];
              && |v| <= |r| && r[..|v|] == v
              && (|r| == |v| || IsSpace(r[|v|]))
              && Tokenize(r[|v|..]) == args[1..]
  {
    var args := ParseCommandLine(line);
    if |args| > 0 && args[0] in aliases then
      var v := aliases[args[0]];
      var rest := JoinRest(args[1..]);
      TokenizeJoinRest(args[1..]);
      assert (v + rest)[..|v|] == v && (v + rest)[|v|..] == rest;
      v + rest
    else line
  }

  /** Alias expansion read back as words: the alias's words replace the first word and
      the other words follow unchanged; a line without an alias reads as before. */
  lemma ReplaceAliasedTokens(line: string, aliases: map<string, string>)
    ensures var args := ParseCommandLine(line);
            ParseCommandLine(ReplaceAliased(line, aliases)) ==
              if |args| > 0 && args[0] in aliases then ParseCommandLine(aliases[args[0]]) + args[1..]
              else args
  {
    var args := ParseCommandLine(line);
    if |args| > 0 && args[0] in aliases {
      var v := aliases[args[0]];
      var rest := JoinRest(args[1..]);
      TokenizeConcat(v, rest);
      TokenizeJoinRest(args[1..]);
    }
  }

  // -------------------------------------------------------------- prompt

  const DefaultPrompt: string := "smash> "

  /** `SmallShell::changePrompt` (Commands.cpp:975-977). */
  function ChangePrompt(name: string): (p: string)
    ensures |p| >= 2 && p[|p| - 2..] == "> "
    ensures p[..|p| - 2] == if name == "" then "smash" else name
  {
    if name == "" then DefaultPrompt else name + "> "
  }

  /** Two names give the same prompt exactly when they are equal, or one is empty and
      the other is "smash". */
  lemma ChangePromptCollisions(a: string, b: string)
    ensures ChangePrompt(a) == ChangePrompt(b) <==>
              a == b || (a == "" && b == "smash") || (a == "smash" && b == "")
  {
    var pa, pb := ChangePrompt(a), ChangePrompt(b);
    if pa == pb {
      assert pa[..|pa| - 2] == pb[..|pb| - 2];
    }
  }

  // ------------------------------------------------------ command classes

  /** The command objects `SmallShell::CreateCommand` can build. */
  datatype CommandKind =
    | RedirectIO | Pipe
    | Alias | Unalias | ChPrompt | ShowPid | Pwd | Cd | Jobs | Fg | Quit | Kill | WhoAmI | ListDir
    | External

  /** The built-in names, in the order `CreateCommand` tests them, and what each builds. */
  const BuiltinNames: seq<string> :=
    ["alias", "unalias", "chprompt", "showpid", "pwd", "cd", "jobs", "fg", "quit", "kill", "whoami", "listdir"]
  const BuiltinKinds: seq<CommandKind> :=
    [Alias, Unalias, ChPrompt, ShowPid, Pwd, Cd, Jobs, Fg, Quit, Kill, WhoAmI, ListDir]

  /** The if-chain on the first word. */
  function KindOfFirstWord(w: string): CommandKind {
    if w == "alias" then Alias
    else if w == "unalias" then Unalias
    else if w == "chprompt" then ChPrompt
    else if w == "showpid" then ShowPid
    else if w == "pwd" then Pwd
    else if w == "cd" then Cd
    else if w == "jobs" then Jobs
    else if w == "fg" then Fg
    else if w == "quit" then Quit
    else if w == "kill" then Kill
    else if w == "whoami" then WhoAmI
    else if w == "listdir" then ListDir
    else External
  }

  /** The if-chain agrees with the table: a built-in name builds its own kind, anything
      else an external command. */
  lemma KindTable(w: string)
    ensures KindOfFirstWord(w) == External <==> w !in BuiltinNames
    ensures forall k :: 0 <= k < |BuiltinNames| ==> (KindOfFirstWord(w) == BuiltinKinds[k] <==> w == BuiltinNames[k])
  {
    forall k | 0 <= k < |BuiltinNames|
      ensures KindOfFirstWord(w) == BuiltinKinds[k] <==> w == BuiltinNames[k]
    {
      KindAt(w, k);
    }
    if w in BuiltinNames {
      var k :| 0 <= k < |BuiltinNames| && BuiltinNames[k] == w;
      KindAt(w, k);
    }
  }

  /** One row of the table. */
  lemma KindAt(w: string, k: nat)
    requires k < |BuiltinNames|
    ensures KindOfFirstWord(w) == BuiltinKinds[k] <==> w == BuiltinNames[k]
  {
    if k == 0 { assert BuiltinNames[k] == "alias" && BuiltinKinds[k] == Alias; }
    else if k == 1 { assert BuiltinNames[k] == "unalias" && BuiltinKinds[k] == Unalias; }
    else if k == 2 { assert BuiltinNames[k] == "chprompt" && BuiltinKinds[k] == ChPrompt; }
    else if k == 3 { assert BuiltinNames[k] == "showpid" && BuiltinKinds[k] == ShowPid; }
    else if k == 4 { assert BuiltinNames[k] == "pwd" && BuiltinKinds[k] == Pwd; }
    else if k == 5 { assert BuiltinNames[k] == "cd" && BuiltinKinds[k] == Cd; }
    else if k == 6 { assert BuiltinNames[k] == "jobs" && BuiltinKinds[k] == Jobs; }
    else if k == 7 { assert BuiltinNames[k] == "fg" && BuiltinKinds[k] == Fg; }
    else if k == 8 { assert BuiltinNames[k] == "quit" && BuiltinKinds[k] == Quit; }
    else if k == 9 { assert BuiltinNames[k] == "kill" && BuiltinKinds[k] == Kill; }
    else if k == 10 { assert BuiltinNames[k] == "whoami" && BuiltinKinds[k] == WhoAmI; }
    else { assert BuiltinNames[k] == "listdir" && BuiltinKinds[k] == ListDir; }
  }

  /** The classification `SmallShell::CreateCommand` (Commands.cpp:1010-1071) makes of the
      words of a line: no command for no words; otherwise redirection wins over a pipe, a
      pipe wins over every built-in name, the first word picks a built-in, and anything
      else is external. */
  function Classify(args: seq<string>): (r: Option<CommandKind>)
    ensures r == None <==> |args| == 0
    ensures r == Some(RedirectIO) <==> |args| > 0 && IsRedirection(args)
    ensures r == Some(Pipe) <==> |args| > 0 && !IsRedirection(args) && IsPipe(args)
    ensures r == Some(External) <==> |args| > 0 && !IsRedirection(args) && !IsPipe(args) && args[0] !in BuiltinNames
    ensures forall k :: 0 <= k < |BuiltinNames| ==>
              (r == Some(BuiltinKinds[k]) <==>
                 |args| > 0 && !IsRedirection(args) && !IsPipe(args) && args[0] == BuiltinNames[k])
  {
    KindTable(if |args| > 0 then args[0] else "");
    if |args| == 0 then None
    else if IsRedirection(args) then Some(RedirectIO)
    else if IsPipe(args) then Some(Pipe)
    else Some(KindOfFirstWord(args[0]))
  }

  /** `SmallShell::CreateCommand`: the line is alias-expanded once, then split into words
      and classified. */
  function CreateCommand(line: string, aliases: map<string, string>): (r: Option<CommandKind>)
    ensures r == None <==> AllSpace(ReplaceAliased(line, aliases))
  {
    var expanded := ReplaceAliased(line, aliases);
    TrimEmptyIffBlank(expanded);
    TokensEmptyIffBlank(expanded);
    Classify(ParseCommandLine(expanded))
  }

  // ----------------------------------------------------------------- jobs

  /** One background job: its job ID, process ID, whether it runs, and its command line. */
  datatype Job = Job(id: int, pid: int, isActive: bool, cmdLine: string)

  /** The job list: the jobs in insertion order and the ID the next job will get. */
  datatype JobsList = JobsList(jobs: seq<Job>, nextId: int)

  /** `JobsList::JobsList` (Commands.cpp:1090-1092): IDs start at 1. */
  function NewJobsList(): JobsList {
    JobsList([], 1)
  }

  /** IDs are positive, below the next ID, and strictly increasing along the list. */
  predicate JobsInv(l: JobsList) {
    && l.nextId >= 1
    && (forall k :: 0 <= k < |l.jobs| ==> 1 <= l.jobs[k].id < l.nextId)
    && (forall k, m :: 0 <= k < m < |l.jobs| ==> l.jobs[k].id < l.jobs[m].id)
  }

  lemma NewJobsListInv()
    ensures JobsInv(NewJobsList())
  {
  }

  /** `removeFinishedJobs` (Commands.cpp:1128-1139): drops the jobs whose processes were
      found finished; `reaped` is the set of process IDs `waitpid` reports as such. */
  function RemoveFinished(jobs: seq<Job>, reaped: set<int>): (r: seq<Job>)
    ensures |r| <= |jobs|
    ensures forall x :: x in r <==> x in jobs && x.pid !in reaped
    ensures Increasing(jobs) ==> Increasing(r)
  {
    if |jobs| == 0 then []
    else
      var tail := RemoveFinished(jobs[1..], reaped);
      ConsIncreasing(jobs, tail);
      if jobs[0].pid in reaped then tail else [jobs[0]] + tail
  }

  /** The filter works block by block: the jobs kept from a concatenation are those kept
      from the first part followed by those kept from the second. With `RemoveFinishedOne`,
      this fixes the order and the copies kept. */
  lemma {:induction false} RemoveFinishedAppend(a: seq<Job>, b: seq<Job>, reaped: set<int>)
    ensures RemoveFinished(a + b, reaped) == RemoveFinished(a, reaped) + RemoveFinished(b, reaped)
    decreases |a|
  {
    if |a| == 0 {
      assert a + b == b;
    } else {
      var ab := a + b;
      assert ab[0] == a[0];
      assert ab[1..] == a[1..] + b;
      RemoveFinishedAppend(a[1..], b, reaped);
      var ta := RemoveFinished(a[1..], reaped);
      var tb := RemoveFinished(b, reaped);
      assert RemoveFinished(ab, reaped) == (if a[0].pid in reaped then ta + tb else [a[0]] + (ta + tb));
      assert RemoveFinished(a, reaped) == (if a[0].pid in reaped then ta else [a[0]] + ta);
      assert [a[0]] + (ta + tb) == ([a[0]] + ta) + tb;
    }
  }

  /** A single job is kept exactly when its process was not reaped. */
  lemma RemoveFinishedOne(x: Job, reaped: set<int>)
    ensures RemoveFinished([x], reaped) == (if x.pid in reaped then [] else [x])
  {
    assert [x][1..] == [];
  }

  /** IDs strictly increase along the sequence. */
  predicate Increasing(s: seq<Job>) {
    forall k, m :: 0 <= k < m < |s| ==> s[k].id < s[m].id
  }

  /** Keeping some of the later jobs of an increasing list, with or without its first
      job in front, keeps it increasing. */
  lemma ConsIncreasing(jobs: seq<Job>, tail: seq<Job>)
    requires |jobs| > 0
    requires forall x :: x in tail ==> x in jobs[1..]
    requires Increasing(jobs[1..]) ==> Increasing(tail)
    ensures Increasing(jobs) ==> Increasing(tail) && Increasing([jobs[0]] + tail)
  {
    if Increasing(jobs) {
      var rest := jobs[1..];
      forall k, m | 0 <= k < m < |rest|
        ensures rest[k].id < rest[m].id
      {
        assert rest[k] == jobs[k + 1] && rest[m] == jobs[m + 1];
      }
      forall x | x in tail
        ensures jobs[0].id < x.id
      {
        var i :| 0 <= i < |rest| && rest[i] == x;
        assert x == jobs[i + 1];
      }
      var r := [jobs[0]] + tail;
      forall k, m | 0 <= k < m < |r|
        ensures r[k].id < r[m].id
      {
        assert r[m] == tail[m - 1] && r[m] in tail;
        if k > 0 {
          assert r[k] == tail[k - 1];
        }
      }
    }
  }

  /** `addJob` (Commands.cpp:1103-1106): finished jobs are removed first, then the new job is
      appended with the next ID, which then grows by one. */
  function AddJob(l: JobsList, pid: int, isActive: bool, cmdLine: string, reaped: set<int>): (r: JobsList)
    ensures JobsInv(l) ==> JobsInv(r)
    ensures r.nextId == l.nextId + 1
    ensures |r.jobs| >= 1 && r.jobs[|r.jobs| - 1] == Job(l.nextId, pid, isActive, cmdLine)
    ensures forall x :: x in r.jobs[..|r.jobs| - 1] <==> x in l.jobs && x.pid !in reaped
  {
    var kept := RemoveFinished(l.jobs, reaped);
    var job := Job(l.nextId, pid, isActive, cmdLine);
    AddJobKeepsInv(l, kept, job);
    var r := JobsList(kept + [job], l.nextId + 1);
    assert r.jobs[..|r.jobs| - 1] == kept;
    r
  }

  /** Appending a job with the next ID after jobs taken from a well-formed list gives a
      well-formed list again. */
  lemma AddJobKeepsInv(l: JobsList, kept: seq<Job>, job: Job)
    requires forall x :: x in kept ==> x in l.jobs
    requires Increasing(l.jobs) ==> Increasing(kept)
    requires job.id == l.nextId
    ensures JobsInv(l) ==> JobsInv(JobsList(kept + [job], l.nextId + 1))
  {
    if JobsInv(l) {
      var r := kept + [job];
      forall k | 0 <= k < |r|
        ensures 1 <= r[k].id < l.nextId + 1
      {
        if k < |kept| {
          assert r[k] == kept[k] && kept[k] in l.jobs;
        }
      }
      forall k, m | 0 <= k < m < |r|
        ensures r[k].id < r[m].id
      {
        assert r[k] == kept[k] && kept[k] in l.jobs;
        if m < |kept| {
          assert r[m] == kept[m];
        }
      }
    }
  }

  /** The position of the first job with this ID, or -1. */
  function JobIndex(jobs: seq<Job>, id: int): (k: int)
    ensures -1 <= k < |jobs|
    ensures k == -1 <==> forall m :: 0 <= m < |jobs| ==> jobs[m].id != id
    ensures k >= 0 ==> jobs[k].id == id && forall m :: 0 <= m < k ==> jobs[m].id != id
  {
    if |jobs| == 0 then -1
    else if jobs[0].id == id then 0
    else
      var k := JobIndex(jobs[1..], id);
      if k == -1 then -1 else k + 1
  }

  /** `getJobById` (Commands.cpp:1141-1148): the first job with that ID, or none. */
  function GetJobById(l: JobsList, id: int): (r: Option<Job>)
    ensures r == None <==> forall m :: 0 <= m < |l.jobs| ==> l.jobs[m].id != id
    ensures r.Some? ==> r.value in l.jobs && r.value.id == id
    ensures r.Some? ==> exists k :: 0 <= k < |l.jobs| && r.value == l.jobs[k] && forall m :: 0 <= m < k ==> l.jobs[m].id != id
  {
    var k := JobIndex(l.jobs, id);
    if k == -1 then None else Some(l.jobs[k])
  }

  /** `removeJobById` (Commands.cpp:1154-1161): erases the first job with that ID, keeping
      the order of the others; no change when there is none. */
  function RemoveJobById(l: JobsList, id: int): (r: JobsList)
    ensures r.nextId == l.nextId
    ensures GetJobById(l, id) == None ==> r == l
    ensures GetJobById(l, id) != None ==>
              exists k :: 0 <= k < |l.jobs| && l.jobs[k].id == id && r.jobs == l.jobs[..k] + l.jobs[k + 1..]
                          && forall m :: 0 <= m < k ==> l.jobs[m].id != id
  {
    var k := JobIndex(l.jobs, id);
    if k == -1 then l else JobsList(l.jobs[..k] + l.jobs[k + 1..], l.nextId)
  }

  /** The positions of a sequence after erasing the element at `k`. */
  lemma EraseAt(s: seq<Job>, k: nat)
    requires k < |s|
    ensures var t := s[..k] + s[k + 1..];
            |t| == |s| - 1 && forall m :: 0 <= m < |t| ==> t[m] == if m < k then s[m] else s[m + 1]
  {
  }

  /** Removal keeps the invariant, and since IDs are unique the removed ID is then gone. */
  lemma RemoveJobByIdGone(l: JobsList, id: int)
    requires JobsInv(l)
    ensures JobsInv(RemoveJobById(l, id))
    ensures GetJobById(RemoveJobById(l, id), id) == None
  {
    var k := JobIndex(l.jobs, id);
    if k != -1 {
      assert RemoveJobById(l, id) == JobsList(l.jobs[..k] + l.jobs[k + 1..], l.nextId);
      EraseKeepsInv(l, k);
    }
  }

  /** Erasing the job at `k` from a well-formed list keeps it well-formed, and no other
      job shares its ID. */
  lemma EraseKeepsInv(l: JobsList, k: nat)
    requires JobsInv(l) && k < |l.jobs|
    ensures var t := l.jobs[..k] + l.jobs[k + 1..];
            JobsInv(JobsList(t, l.nextId)) && forall m :: 0 <= m < |t| ==> t[m].id != l.jobs[k].id
  {
    var t := l.jobs[..k] + l.jobs[k + 1..];
    EraseAt(l.jobs, k);
    forall a, b | 0 <= a < b < |t|
      ensures t[a].id < t[b].id
    {
      assert t[a] == l.jobs[if a < k then a else a + 1];
      assert t[b] == l.jobs[if b < k then b else b + 1];
    }
    forall m | 0 <= m < |t|
      ensures 1 <= t[m].id < l.nextId && t[m].id != l.jobs[k].id
    {
      var m' := if m < k then m else m + 1;
      assert t[m] == l.jobs[m'];
    }
  }

  /** The first position carrying an ID is the one JobIndex finds. */
  lemma JobIndexAt(s: seq<Job>, id: int, j: nat)
    requires j < |s| && s[j].id == id && forall m :: 0 <= m < j ==> s[m].id != id
    ensures JobIndex(s, id) == j
  {
  }

  /** Erasing a job that does not carry `id` shifts the first job carrying it down by
      one place when it came after the erased one. */
  lemma EraseKeepsFirst(s: seq<Job>, k: nat, id: int)
    requires k < |s| && s[k].id != id
    ensures var t := s[..k] + s[k + 1..];
            var j := JobIndex(s, id);
            var j' := JobIndex(t, id);
            (j == -1 <==> j' == -1) && (j != -1 ==> t[j'] == s[j])
  {
    var t := s[..k] + s[k + 1..];
    var j := JobIndex(s, id);
    EraseAt(s, k);
    if j == -1 {
      assert JobIndex(t, id) == -1;
    } else {
      var j' := if j < k then j else j - 1;
      assert t[j'] == s[j];
      forall m | 0 <= m < j'
        ensures t[m].id != id
      {
        var m' := if m < k then m else m + 1;
        assert t[m] == s[m'];
      }
      JobIndexAt(t, id, j');
    }
  }

  /** Removing one ID leaves every other ID finding the same job as before. */
  lemma RemoveJobByIdKeepsOthers(l: JobsList, id: int, other: int)
    requires other != id
    ensures GetJobById(RemoveJobById(l, id), other) == GetJobById(l, other)
  {
    var k := JobIndex(l.jobs, id);
    if k != -1 {
      assert RemoveJobById(l, id).jobs == l.jobs[..k] + l.jobs[k + 1..];
      EraseKeepsFirst(l.jobs, k, other);
    }
  }

  /** `getLastJob` (Commands.cpp:1163-1170): the newest job and its ID, or -1 and none. */
  function GetLastJob(l: JobsList): (r: (int, Option<Job>))
    ensures |l.jobs| == 0 <==> r == (-1, None)
    ensures |l.jobs| > 0 ==> r.1 == Some(l.jobs[|l.jobs| - 1]) && r.0 == r.1.value.id
  {
    if |l.jobs| == 0 then (-1, None) else (l.jobs[|l.jobs| - 1].id, Some(l.jobs[|l.jobs| - 1]))
  }

  /** `getLastJobID` (Commands.cpp:1172-1174); `back()` on an empty list is undefined, so
      the list must not be empty. Under the invariant it is the largest live ID. */
  function GetLastJobId(l: JobsList): (id: int)
    requires |l.jobs| > 0
    ensures JobsInv(l) ==> forall x :: x in l.jobs ==> x.id <= id
    ensures JobsInv(l) ==> 1 <= id < l.nextId
    ensures exists x :: x in l.jobs && x.id == id
  {
    var id := l.jobs[|l.jobs| - 1].id;
    assert l.jobs[|l.jobs| - 1] in l.jobs;
    id
  }

  /** Adding a job makes it the newest, with an ID above every surviving job's. */
  lemma AddJobIsNewest(l: JobsList, pid: int, isActive: bool, cmdLine: string, reaped: set<int>)
    requires JobsInv(l)
    ensures var r := AddJob(l, pid, isActive, cmdLine, reaped);
            && GetLastJobId(r) == l.nextId
            && GetJobById(r, l.nextId) == Some(Job(l.nextId, pid, isActive, cmdLine))
            && forall x :: x in r.jobs && x != r.jobs[|r.jobs| - 1] ==> x.id < GetLastJobId(r)
  {
    var r := AddJob(l, pid, isActive, cmdLine, reaped);
    var n := |r.jobs|;
    assert forall m :: 0 <= m < n - 1 ==> r.jobs[m] in r.jobs[..n - 1];
    assert JobIndex(r.jobs, l.nextId) == n - 1;
  }
}

=== FILE: wrappers.dfy ===
/** A value that may be absent: the model's stand-in for a null pointer or a
    `nullptr` return. */
module Wrappers {

  datatype Option<T> = None | Some(value: T)
}
